=== FILE: README.md ===
# Kanban board state model

A Dafny model of the state layer of a single-component React Kanban board,
`KanbanBoard` in `src/components/kanban-board.tsx`. The board is a sequence of
columns, and each column holds a sequence of cards. A card carries a content
string, a description, labels, an optional due date and a checklist. Every
user action is a copy-on-write update of that sequence, matched by id:

- adding, moving, editing and deleting cards;
- adding, retitling and deleting columns;
- adding and toggling checklist items;
- adding and removing labels.

Two read-only classifiers derive a card's checklist progress and its
background colour. A single-slot tracker is meant to let a touch gesture
drag a card from one column to another. As wired, every touch end lands on
the card's own column (see `DragDrop.TouchGestureAsWired`).

The model is functional. Each update is a pure function from the current
board to the next one, written with the JavaScript array methods it uses
(`map`, `filter`, `find`, `some`, `every`, module `JsArray`) and with
`String.prototype.trim` (module `JsString`).

**Ids need not be unique.** The component mints ids from `Date.now()`, so
nothing makes them distinct. The model does not assume they are:

- an update applies to every element whose id matches;
- a lookup returns the first match.

Properties that need distinct ids ask for them explicitly, through
`UniqueColumnIds`, `UniqueCardIds` or `WellFormed`.

Modules:

- `Wrappers`: the optional value (`T | undefined`) and `??`.
- `JsArray`, `JsString`: the array methods and `trim`. `map`, `filter`,
  `findIndex`, `find` and `trim` are characterised by their contracts;
  `some`, `every`, the whitespace test and the blank test are plain
  definitions.
- `Board`: the data types, the initial board and the first-match lookups.
- `BoardOps`: every update function of the component.
- `CardStatus`: checklist progress and card colour.
- `DragDrop`: the touch slot and the two drop paths.
- `MoveLemmas`:
  - card conservation and the round trip of `moveCard`;
  - the same-column loss;
  - the corrected move.
- `CrudLemmas`: create/delete round trips, edit composition, the identity
  invariant, and unreachability after a column delete.
- `CardDetailLemmas`: label and checklist properties.
- `StatusLemmas`: progress and colour examples, and urgency over time.
- `Scenario`: add a card to "To Do", then move it to "Done".

## Model

| member | source | states |
|---|---|---|
| JsArray.Map | src/components/kanban-board.tsx:75-94 | `map` keeps the length and applies the callback at every position |
| JsArray.Filter | src/components/kanban-board.tsx:111 | `filter` keeps exactly the elements passing the predicate and never grows the array |
| JsArray.FilterCount | src/components/kanban-board.tsx:111 | a kept element occurs as often as in the input; a dropped one not at all |
| JsArray.FilterIsSubsequence | src/components/kanban-board.tsx:175 | `filter` deletes elements and keeps the rest in their original relative order |
| JsArray.FilterKeepsAll | src/components/kanban-board.tsx:111 | a filter keeps every element exactly when every element passes |
| JsArray.FilterAppend | src/components/kanban-board.tsx:111 | filtering an array with an appended tail filters both parts separately |
| JsArray.FilterAll | src/components/kanban-board.tsx:111 | a filter that every element passes returns the array unchanged |
| JsArray.FilterKeepsPairwise | src/components/kanban-board.tsx:204 | any relation holding between all ordered pairs still holds after filtering |
| JsArray.FindIndex | src/components/kanban-board.tsx:101-102 | the first index whose element passes, or the length when none does |
| JsArray.Find | src/components/kanban-board.tsx:106 | `find` is empty exactly when no element passes, and otherwise returns the FIRST passing element |
| JsString.TrimStart | src/components/kanban-board.tsx:84 | the longest suffix not starting with whitespace; everything cut off is whitespace |
| JsString.TrimEnd | src/components/kanban-board.tsx:84 | the longest prefix not ending with whitespace; everything cut off is whitespace |
| JsString.Trim | src/components/kanban-board.tsx:73 | `trim()` is the middle slice of the string with only leading and trailing whitespace cut off; it is empty exactly when the string is all whitespace, otherwise it starts and ends with non-whitespace |
| JsString.TrimBlank | src/components/kanban-board.tsx:183 | stripping both ends leaves nothing exactly when every character is whitespace |
| JsString.TrimIdempotent | src/components/kanban-board.tsx:187 | trimming a trimmed title or content changes nothing |
| Board.ColumnIndex | src/components/kanban-board.tsx:101 | the first column carrying the id, or none exists (both directions) |
| Board.FindColumn | src/components/kanban-board.tsx:101-104 | the lookup succeeds exactly when a column has the id, and returns the first such column |
| Board.CardIndex | src/components/kanban-board.tsx:106 | the first card carrying the id, or none exists (both directions) |
| Board.FindCardIn | src/components/kanban-board.tsx:106-107 | the card lookup succeeds exactly when a card has the id, and returns the first |
| Board.FindColumnIsFind | src/components/kanban-board.tsx:101 | the column lookup is exactly `find` with the column-id callback |
| Board.FindCardInIsFind | src/components/kanban-board.tsx:106 | the card lookup is exactly `find` with the card-id callback |
| Board.FindCard | src/components/kanban-board.tsx:217 | the chained optional lookup finds a card only if the column holds it; with distinct column ids, exactly then |
| Board.ColumnIndexSameIds | src/components/kanban-board.tsx:154-167 | an update that keeps every column id keeps which column the lookup finds |
| Board.CardIndexSameIds | src/components/kanban-board.tsx:158-161 | an update that keeps every card id keeps which card the lookup finds |
| Board.FindAppendedCard | src/components/kanban-board.tsx:114 | a card appended to a column without its id is the one the lookup then finds |
| Board.CardBagUpdate | src/components/kanban-board.tsx:109-117 | replacing one column changes the board's cards by exactly that column's difference |
| BoardOps.ApplyPatch | src/components/kanban-board.tsx:161 | `{ ...card, ...updates }`: the empty update changes nothing, an update without an id keeps the card's id, and spreading a whole card over any card gives that card |
| BoardOps.ApplyPatchIdempotent | src/components/kanban-board.tsx:161 | spreading the same update twice is spreading it once |
| BoardOps.AddCard | src/components/kanban-board.tsx:72-94 | blank content or an unknown column leaves the board unchanged; otherwise each matching column gains one trailing card with the trimmed content and empty fields, and nothing else changes |
| BoardOps.RemoveCard | src/components/kanban-board.tsx:111 | the cards without the id remain, in order and each as often as before; none with the id is left; the column shrinks exactly when it held the id |
| BoardOps.MoveCard | src/components/kanban-board.tsx:99-121 | a missing column or card leaves the board unchanged; otherwise source columns lose every card with the id, and distinct target columns gain the found card at the end |
| BoardOps.EditCardIn | src/components/kanban-board.tsx:158-161 | only cards with the id change, each by the spread update |
| BoardOps.EditCard | src/components/kanban-board.tsx:154-167 | a missing card leaves the board unchanged; only matching columns' matching cards change; column ids and titles stay |
| BoardOps.EditCardRewrites | src/components/kanban-board.tsx:154-167 | `editCard` rewrites exactly the matching cards of the matching columns, each by spreading the update over it, and leaves everything else as it was |
| BoardOps.DeleteCard | src/components/kanban-board.tsx:169-180 | afterwards no matching column holds the id; only matching columns change; a missing card changes nothing |
| BoardOps.AddColumn | src/components/kanban-board.tsx:182-193 | a blank title changes nothing; otherwise the board gains exactly one trailing empty column with the fresh id and the trimmed, non-empty title |
| BoardOps.EditColumn | src/components/kanban-board.tsx:195-201 | only columns with the id get the new title; ids and cards stay; an unknown id changes nothing |
| BoardOps.DeleteColumn | src/components/kanban-board.tsx:203-205 | the columns without the id remain, in order and each as often as before; no column with the id is left; an unknown id changes nothing |
| BoardOps.AddChecklistItem | src/components/kanban-board.tsx:207-214 | every card with the id in a column with the id gets the checklist of the card the lookup sees (empty if none) plus one new unchecked item; column ids, titles and all other cards stay |
| BoardOps.ToggleItems | src/components/kanban-board.tsx:219-221 | `checked` flips exactly on the items with the id; ids and texts stay |
| BoardOps.ToggleChecklistItem | src/components/kanban-board.tsx:216-224 | a missing card changes nothing; otherwise every matching card gets the looked-up card's checklist with the item toggled, and column ids, titles and all other cards stay |
| BoardOps.AddLabel | src/components/kanban-board.tsx:226-232 | a missing card or an existing label text changes nothing; otherwise every matching card gets the looked-up card's labels plus the new one, and column ids, titles and all other cards stay |
| BoardOps.RemoveLabelId | src/components/kanban-board.tsx:237 | exactly the labels with another id remain, in order and each as often as before |
| BoardOps.RemoveLabel | src/components/kanban-board.tsx:234-239 | a missing card changes nothing; otherwise every matching card gets the looked-up card's labels without those with the id, and column ids, titles and all other cards stay |
| BoardOps.SubmitChecklistItem | src/components/kanban-board.tsx:456-462 | a blank entry changes nothing; otherwise the untrimmed text is added as an unchecked item: every matching card gets the looked-up checklist (empty if none) plus that item, and column ids, titles and all other cards stay |
| BoardOps.FindCardAfterEdit | src/components/kanban-board.tsx:154-167 | an id-keeping edit leaves the lookup on the same card, now patched |
| CardStatus.ChecklistProgress | src/components/kanban-board.tsx:241-245 | 0 for an empty checklist; otherwise the number of checked items, counted one by one, over the number of items, times 100; always in [0, 100]; 100 exactly when all items are checked and 0 exactly when none is |
| CardStatus.CountChecked | src/components/kanban-board.tsx:243 | the number of checked items never exceeds the number of items |
| CardStatus.CheckedItemsCount | src/components/kanban-board.tsx:243 | the length of the filtered checked list is the number of checked items |
| CardStatus.CheckedNone | src/components/kanban-board.tsx:243 | the filtered checked list is empty exactly when no item is checked |
| CardStatus.ProgressBounds | src/components/kanban-board.tsx:244 | `checked / total * 100` is within [0, 100], hitting the ends only at none and all |
| CardStatus.CardColor | src/components/kanban-board.tsx:247-272 | green exactly for a complete non-empty checklist; otherwise red exactly when overdue, orange exactly when due within three days, and no class otherwise |
| DragDrop.Drop | src/components/kanban-board.tsx:149-151 | a drop with an empty card or column id, or onto a missing column, changes nothing |
| DragDrop.TouchStart | src/components/kanban-board.tsx:123-125 | a touch start fills the slot with the touched card and column and leaves the board alone |
| DragDrop.TouchEnd | src/components/kanban-board.tsx:136-152 | a touch end clears the slot and drops what it held; with an empty slot nothing changes |
| DragDrop.MouseDrop | src/components/kanban-board.tsx:143-151 | a mouse drop moves with the transferred ids and leaves the touch slot as it is |
| DragDrop.TouchGestureMoves | src/components/kanban-board.tsx:123-152 | touch start then touch end is exactly one move, leaving the slot empty |
| DragDrop.GesturesAgree | src/components/kanban-board.tsx:136-152 | the touch and mouse paths make the same move for the same ids |
| DragDrop.LatestTouchWins | src/components/kanban-board.tsx:124-125 | only the latest touch start decides what a touch end moves |
| DragDrop.TouchEndConsumes | src/components/kanban-board.tsx:140-143 | a second touch end changes nothing |
| DragDrop.TouchGestureAsWired | src/components/kanban-board.tsx:284-316 | with the touch end on the column that renders the touched card, the gesture clears the slot and the card leaves that column |
| MoveLemmas.UniqueIdCount | src/components/kanban-board.tsx:106 | with distinct card ids, a card with a given id occurs once and no other card shares the id |
| MoveLemmas.RemoveUniqueCard | src/components/kanban-board.tsx:111 | filtering out a unique card id removes exactly that one card |
| MoveLemmas.CardBagTransfer | src/components/kanban-board.tsx:109-117 | one column losing a card and another gaining it keeps the board's cards |
| MoveLemmas.MoveCardConservesCards | src/components/kanban-board.tsx:99-121 | a move between distinct columns keeps the multiset of cards on the board |
| MoveLemmas.MoveCardRoundTrip | src/components/kanban-board.tsx:99-121 | moving A to B and back restores B and puts the card back in A, at A's end |
| MoveLemmas.MoveCardFirstLeg | src/components/kanban-board.tsx:109-117 | after the first leg the card sits at B's end and is the one the lookup in B finds |
| MoveLemmas.MoveCardSameColumnLosesCard | src/components/kanban-board.tsx:110-114 | a move within one column removes the card and never puts it back |
| MoveLemmas.MoveCardToTail | src/components/kanban-board.tsx:99-121 | the corrected move: nothing changes when the card is missing, only the source and target columns change, and column ids and titles stay |
| MoveLemmas.MoveCardToTailConservesCards | src/components/kanban-board.tsx:99-121 | the corrected move keeps every card on the board, within one column included |
| MoveLemmas.CardBagReorder | src/components/kanban-board.tsx:114 | rearranging one column's cards keeps the board's cards |
| MoveLemmas.MoveCardToTailWithin | src/components/kanban-board.tsx:110-114 | the corrected same-column move rewrites only that column, with the card at its end |
| CrudLemmas.DeleteColumnUndoesAddColumn | src/components/kanban-board.tsx:182-205 | deleting a column just added under a fresh id gives back the board |
| CrudLemmas.DeleteCardUndoesAddCard | src/components/kanban-board.tsx:72-94 | deleting a card just added under a fresh id gives back the board |
| CrudLemmas.AddCardAddsOneCard | src/components/kanban-board.tsx:72-94 | with distinct column ids, adding to an existing column adds exactly the new card to the board |
| CrudLemmas.CardBagGrow | src/components/kanban-board.tsx:78-89 | a column gaining cards adds exactly those cards to the board |
| CrudLemmas.DeletedColumnIsUnreachable | src/components/kanban-board.tsx:203-205 | after deleting a column its cards cannot be found, and editing, deleting, adding or moving a card, retitling or deleting the column again, adding or toggling a checklist item, and adding or removing a label, all naming it, are no-ops |
| CrudLemmas.EditColumnLastWriteWins | src/components/kanban-board.tsx:195-201 | retitling twice equals retitling once with the later title |
| CrudLemmas.MergePatches | src/components/kanban-board.tsx:161 | a merged update keeps the card id exactly when neither update sets it |
| CrudLemmas.ApplyPatchMerge | src/components/kanban-board.tsx:161 | spreading two updates in turn equals spreading their merge; an empty update changes nothing |
| CrudLemmas.EditCardMerge | src/components/kanban-board.tsx:154-167 | two edits of one card equal one edit with the merged update when the first keeps the id |
| CrudLemmas.AddColumnKeepsWellFormed | src/components/kanban-board.tsx:182-193 | a column added under a fresh id keeps ids distinct |
| CrudLemmas.AppendKeepsUniqueCardIds | src/components/kanban-board.tsx:114 | appending a card with a new id keeps card ids distinct |
| CrudLemmas.RemoveKeepsUniqueCardIds | src/components/kanban-board.tsx:111 | removing cards keeps card ids distinct |
| CrudLemmas.AddCardKeepsWellFormed | src/components/kanban-board.tsx:72-94 | a card added under an id new to its column keeps ids distinct |
| CrudLemmas.DeleteColumnKeepsWellFormed | src/components/kanban-board.tsx:203-205 | deleting columns keeps ids distinct |
| CrudLemmas.DeleteCardKeepsWellFormed | src/components/kanban-board.tsx:169-180 | deleting cards keeps ids distinct |
| CrudLemmas.MoveCardKeepsWellFormed | src/components/kanban-board.tsx:99-121 | moving a card into a column without its id keeps ids distinct |
| CardDetailLemmas.FindCardOnBoard | src/components/kanban-board.tsx:227 | the card the lookup returns is stored at the first matching positions |
| CardDetailLemmas.OnlyMatch | src/components/kanban-board.tsx:154-167 | with distinct ids the edit touches only the card the lookup returns |
| CardDetailLemmas.EditCardNoOp | src/components/kanban-board.tsx:154-167 | with distinct ids an edit leaving that card as it is changes nothing |
| CardDetailLemmas.AddLabelIdempotent | src/components/kanban-board.tsx:226-232 | adding a label with the same text twice leaves exactly one such label |
| CardDetailLemmas.SetLabelsKeepsTextsDistinct | src/components/kanban-board.tsx:229 | setting distinct-text labels keeps every card's label texts distinct |
| CardDetailLemmas.AppendLabelKeepsTextsDistinct | src/components/kanban-board.tsx:228-229 | appending a label with a new text keeps label texts distinct |
| CardDetailLemmas.AddLabelKeepsTextsDistinct | src/components/kanban-board.tsx:226-232 | adding labels never gives a card two labels with one text |
| CardDetailLemmas.RemoveLabelKeepsTextsDistinct | src/components/kanban-board.tsx:234-239 | removing labels keeps label texts distinct |
| CardDetailLemmas.RemoveAppendedLabel | src/components/kanban-board.tsx:237 | filtering out the id of a label just appended restores the labels |
| CardDetailLemmas.RemoveLabelUndoesAddLabel | src/components/kanban-board.tsx:226-239 | removing a label just added restores the card |
| CardDetailLemmas.RemoveLabelUndoesAddLabelOnBoard | src/components/kanban-board.tsx:226-239 | with distinct ids, removing a label just added restores the board |
| CardDetailLemmas.RemoveNewLabel | src/components/kanban-board.tsx:228-237 | the same undo when the label's text was new |
| CardDetailLemmas.ToggleItemsInvolution | src/components/kanban-board.tsx:219-221 | toggling an item twice restores the checklist |
| CardDetailLemmas.ToggleTwiceRestores | src/components/kanban-board.tsx:216-224 | with distinct ids, toggling an item twice restores the board |
| CardDetailLemmas.AddChecklistItemUncompletes | src/components/kanban-board.tsx:207-214 | after adding an item the card's progress is below 100 and it is not shown as completed |
| StatusLemmas.ProgressExamples | src/components/kanban-board.tsx:241-245 | an empty checklist is at 0; one checked item of two is at 50 |
| StatusLemmas.ProgressOneOfThree | src/components/kanban-board.tsx:241-245 | one checked item of three is at exactly 100/3 |
| StatusLemmas.CardColorExamples | src/components/kanban-board.tsx:247-272 | all checked gives green; due yesterday red; due tomorrow orange; due in ten days no class |
| StatusLemmas.CompletedIgnoresDay | src/components/kanban-board.tsx:251-253 | whether a card shows as completed does not depend on the day |
| StatusLemmas.UrgencyMonotone | src/components/kanban-board.tsx:255-271 | as days pass a card moves only from no class to orange to red, never back |
| Scenario.TrimUntouched | src/components/kanban-board.tsx:84 | a string without whitespace at either end trims to itself |
| Scenario.WriteSpecIsTrimmed | src/components/kanban-board.tsx:73 | "Write spec" is non-blank and already trimmed |
| Scenario.AddStep | src/components/kanban-board.tsx:61-94 | adding to "To Do" on the initial board gives a bare card holding the text |
| Scenario.FindOnlyCard | src/components/kanban-board.tsx:106 | a column's only card is the one the lookup finds |
| Scenario.MoveAcross | src/components/kanban-board.tsx:109-117 | moving the only card of the first column to an empty third one empties the first and fills the third |
| Scenario.MoveAcrossCards | src/components/kanban-board.tsx:111-114 | the two involved columns' card lists after that move |
| Scenario.MoveStep | src/components/kanban-board.tsx:99-121 | moving the new card to "Done" empties "To Do" and fills "Done" |
| Scenario.AddThenMoveToDone | src/components/kanban-board.tsx:61-121 | on the initial board, add to "To Do" then move to "Done": "To Do" ends empty and "Done" holds the bare card |

## Left out

- Rendering: all JSX and widget wiring (`kanban-board.tsx:274-543`) and `src/app/page.tsx` are presentation only.
- `dataTransfer`: reading and writing it in the mouse drag path becomes the ids passed to `DragDrop.MouseDrop`.
- `preventDefault` and the drag-over handler have no effect on the board.
- `prompt()` dialogs: the prompts for a new column title or new card content and their truthiness guards (`:296-297`, `:328-329`) are caller code, so `EditColumn` and `EditCard` accept any value.
- Ids: `Date.now().toString()` ids are a fresh-id parameter of each creating operation. In `addCard` the clock is read inside the `map` callback (`:83`), so with duplicate column ids each matching column could get a different id. The model gives every appended card the single `freshId`.
- Dates: JavaScript `Date` arithmetic (`setHours`, the `setDate` roll-over, time zones) is left out. Due dates and `today` are integer day numbers taken at local midnight, and `today` is a parameter.
- CardStatus.ChecklistProgress: is computed as an exact `real`; IEEE floating-point rounding of `checked / total * 100` is not modelled.
- React scheduling: `setState` batching and the stale closures are left out: `columns`, read by `addChecklistItem`, `toggleChecklistItem`, `addLabel` and `removeLabel`, and `draggedCard`, read by `handleDrop` (`:140`). Updates are applied in sequence to the current board, so the closures are always current.
- Transient inputs: `newCardContent`, `newColumnTitle` and the `newLabel` reset at `:231` are left out. Their values become operation arguments.
- `LABEL_COLORS` are styling tokens; a label's colour is an uninterpreted string.
- DragDrop.TouchEnd: accepts any target column. The component only ever passes the touched card's own column (`onTouchEnd` at `:284` is on the column that renders the card at `:309-316`, and under W3C Touch Events a touch end is delivered to the element the touch started on), so a cross-column touch move is never reached.
- DragDrop.TouchEnd: a touch end with an empty slot reads `dataTransfer`, which a touch event does not have. That throws a `TypeError` before any state change, so the model keeps the state unchanged and does not model the exception.
- A same-column `moveCard` deletes the card, because the source branch wins. Dropping a card on its own column evidently should keep it, at the column's end. `BoardOps.MoveCard` follows the code; the corrected move is `MoveLemmas.MoveCardToTail` (see Findings).

## Findings

| source | as written | input that shows it | evidently intended | confidence | as-written member | corrected member |
|---|---|---|---|---|---|---|
| src/components/kanban-board.tsx:110-114 | when `sourceColumnId === targetColumnId` the first `if` filters the card out of the column and returns, so the card is never re-appended | a board whose column `todo` holds one card `1`; dropping that card back onto `todo` calls `moveCard("1", "todo", "todo")`, which leaves `todo` empty | a move within one column is a no-op up to position: the card ends at the column's tail and no card is lost | not executed | MoveLemmas.MoveCardSameColumnLosesCard | MoveLemmas.MoveCardToTailConservesCards |

=== FILE: board.dfy ===
/**
 The board's data: columns holding cards, cards holding labels and a
 checklist, and the first-match lookups the update functions start from.

 Ids are opaque strings that nothing forces to be distinct (the component
 mints them from the clock), so every definition here works for any board;
 the properties that need distinct ids ask for them with `UniqueColumnIds`
 and `UniqueCardIds`.
 */
module Board {
  import opened Wrappers
  import opened JsArray

  type Id = string

  /** A calendar day, the due date and today both taken at local midnight. */
  type Day = int

  datatype ChecklistItem = ChecklistItem(id: Id, text: string, checked: bool)

  /** `color` is one of the component's styling tokens; nothing here depends on it. */
  datatype Label = Label(id: Id, text: string, color: string)

  datatype Card = Card(
    id: Id,
    content: string,
    description: string,
    labels: seq<Label>,
    dueDate: Option<Day>,
    checklist: seq<ChecklistItem>)

  datatype Column = Column(id: Id, title: string, cards: seq<Card>)

  /** The columns, in display order. */
  type Board = seq<Column>

  /** The board the component starts with: three empty columns. */
  const InitialBoard: Board := [
    Column("todo", "To Do", []),
    Column("inprogress", "In Progress", []),
    Column("done", "Done", [])
  ]

  predicate HasColumn(b: Board, columnId: Id) {
    exists i :: 0 <= i < |b| && b[i].id == columnId
  }

  predicate HasCardIn(cards: seq<Card>, cardId: Id) {
    exists j :: 0 <= j < |cards| && cards[j].id == cardId
  }

  /** Some column with id `columnId` holds a card with id `cardId`. */
  predicate HasCard(b: Board, columnId: Id, cardId: Id) {
    exists i :: 0 <= i < |b| && b[i].id == columnId && HasCardIn(b[i].cards, cardId)
  }

  predicate UniqueColumnIds(b: Board) {
    forall i, j :: 0 <= i < j < |b| ==> b[i].id != b[j].id
  }

  predicate UniqueCardIds(cards: seq<Card>) {
    forall i, j :: 0 <= i < j < |cards| ==> cards[i].id != cards[j].id
  }

  /** The identity invariant of the data model: column ids distinct, card ids distinct within each column. */
  predicate WellFormed(b: Board) {
    && UniqueColumnIds(b)
    && forall i :: 0 <= i < |b| ==> UniqueCardIds(b[i].cards)
  }

  /** The `find` callback `col => col.id === columnId`. */
  function ColumnHasId(columnId: Id): Column -> bool {
    (column: Column) => column.id == columnId
  }

  /** The `find` callback `card => card.id === cardId`. */
  function CardHasId(cardId: Id): Card -> bool {
    (card: Card) => card.id == cardId
  }

  /** Index of the first column with id `columnId`, or `|b|` when there is none. */
  function ColumnIndex(b: Board, columnId: Id): (k: nat)
    ensures k <= |b|
    ensures k < |b| <==> HasColumn(b, columnId)
    ensures k < |b| ==> b[k].id == columnId
    ensures forall j :: 0 <= j < k ==> b[j].id != columnId
  {
    FindIndex(b, ColumnHasId(columnId))
  }

  /** `columns.find(col => col.id === columnId)` */
  function FindColumn(b: Board, columnId: Id): (r: Option<Column>)
    ensures r.Some? <==> HasColumn(b, columnId)
    ensures r.Some? ==> r.value == b[ColumnIndex(b, columnId)]
  {
    var k := ColumnIndex(b, columnId);
    if k < |b| then Some(b[k]) else None
  }

  /** `FindColumn` is JavaScript's `find` with the column-id callback. */
  lemma FindColumnIsFind(b: Board, columnId: Id)
    ensures FindColumn(b, columnId) == Find(b, ColumnHasId(columnId))
  {
  }

  /** Index of the first card with id `cardId`, or `|cards|` when there is none. */
  function CardIndex(cards: seq<Card>, cardId: Id): (k: nat)
    ensures k <= |cards|
    ensures k < |cards| <==> HasCardIn(cards, cardId)
    ensures k < |cards| ==> cards[k].id == cardId
    ensures forall j :: 0 <= j < k ==> cards[j].id != cardId
  {
    FindIndex(cards, CardHasId(cardId))
  }

  /** `column.cards.find(c => c.id === cardId)` */
  function FindCardIn(cards: seq<Card>, cardId: Id): (r: Option<Card>)
    ensures r.Some? <==> HasCardIn(cards, cardId)
    ensures r.Some? ==> r.value == cards[CardIndex(cards, cardId)]
  {
    var k := CardIndex(cards, cardId);
    if k < |cards| then Some(cards[k]) else None
  }

  /** `FindCardIn` is JavaScript's `find` with the card-id callback. */
  lemma FindCardInIsFind(cards: seq<Card>, cardId: Id)
    ensures FindCardIn(cards, cardId) == Find(cards, CardHasId(cardId))
  {
  }

  /**
   `columns.find(col => col.id === columnId)?.cards.find(card => card.id === cardId)`:
   the first card with id `cardId` in the FIRST column with id `columnId`.
   */
  function FindCard(b: Board, columnId: Id, cardId: Id): (r: Option<Card>)
    ensures r.Some? ==> HasCard(b, columnId, cardId) && r.value.id == cardId
    ensures UniqueColumnIds(b) ==> (r.Some? <==> HasCard(b, columnId, cardId))
  {
    match FindColumn(b, columnId)
    case None => None
    case Some(column) => FindCardIn(column.cards, cardId)
  }

  /** The first-match index depends only on the ids, position by position. */
  lemma ColumnIndexSameIds(b: Board, b': Board, columnId: Id)
    requires |b'| == |b|
    requires forall i :: 0 <= i < |b| ==> b'[i].id == b[i].id
    ensures ColumnIndex(b', columnId) == ColumnIndex(b, columnId)
  {
    var k, k' := ColumnIndex(b, columnId), ColumnIndex(b', columnId);
    if k < k' { assert b'[k].id == columnId; }
  }

  /** The first-match index depends only on the ids, position by position. */
  lemma CardIndexSameIds(cards: seq<Card>, cards': seq<Card>, cardId: Id)
    requires |cards'| == |cards|
    requires forall j :: 0 <= j < |cards| ==> cards'[j].id == cards[j].id
    ensures CardIndex(cards', cardId) == CardIndex(cards, cardId)
  {
    var k, k' := CardIndex(cards, cardId), CardIndex(cards', cardId);
    if k < k' { assert cards'[k].id == cardId; }
  }

  /** A card appended to a column without its id is the one `find` returns. */
  lemma FindAppendedCard(cards: seq<Card>, card: Card)
    requires !HasCardIn(cards, card.id)
    ensures FindCardIn(cards + [card], card.id) == Some(card)
  {
    var k := CardIndex(cards + [card], card.id);
    assert (cards + [card])[|cards|] == card;
    assert forall j :: 0 <= j < |cards| ==> (cards + [card])[j] == cards[j];
    assert k == |cards|;
  }

  /** Every card on `b`, column by column, as a multiset. */
  ghost function CardBag(b: Board): multiset<Card>
  {
    if |b| == 0 then multiset{} else multiset(b[0].cards) + CardBag(b[1..])
  }

  /** Replacing one column changes the board's cards by exactly that column's cards. */
  lemma {:induction false} CardBagUpdate(b: Board, i: nat, column: Column)
    requires i < |b|
    ensures CardBag(b[i := column]) + multiset(b[i].cards) == CardBag(b) + multiset(column.cards)
  {
    if i == 0 {
      assert b[i := column][1..] == b[1..];
    } else {
      assert b[i := column][1..] == b[1..][i - 1 := column];
      assert b[i := column][0] == b[0] && b[1..][i - 1] == b[i];
      CardBagUpdate(b[1..], i - 1, column);
      var head, rest := multiset(b[0].cards), CardBag(b[1..][i - 1 := column]);
      assert CardBag(b[i := column]) == head + rest;
      assert rest + multiset(b[i].cards) == CardBag(b[1..]) + multiset(column.cards);
      assert (head + rest) + multiset(b[i].cards) == head + (rest + multiset(b[i].cards));
    }
  }
}

=== FILE: board_ops.dfy ===
/**
 The board's update functions: each takes the current board and returns the
 next one, built with `map`, `filter` and append exactly as the component's
 `setColumns` callbacks build it. Every update applies to ALL columns (and
 cards) whose id matches; lookups with `find` take the first match.

 Fresh ids (the component's `Date.now().toString()`) are parameters.
 */
module BoardOps {
  import opened Wrappers
  import opened JsArray
  import opened JsString
  import opened Board

  /** `Partial<KanbanCard>`: the fields an edit supplies; `None` leaves the field alone. */
  datatype CardPatch = CardPatch(
    id: Option<Id>,
    content: Option<string>,
    description: Option<string>,
    labels: Option<seq<Label>>,
    dueDate: Option<Option<Day>>,
    checklist: Option<seq<ChecklistItem>>)

  const NoChanges: CardPatch := CardPatch(None, None, None, None, None, None)

  function SetLabels(labels: seq<Label>): CardPatch {
    NoChanges.(labels := Some(labels))
  }

  function SetChecklist(items: seq<ChecklistItem>): CardPatch {
    NoChanges.(checklist := Some(items))
  }

  /**
   `{ ...card, ...updates }`: supplied fields override, the rest are kept. The
   empty update changes nothing, an update without an id keeps the card's id,
   and an update supplying every field yields exactly the card it was taken from.
   */
  function ApplyPatch(card: Card, u: CardPatch): (r: Card)
    ensures u == NoChanges ==> r == card
    ensures u.id.None? ==> r.id == card.id
    ensures forall d: Card :: u == PatchOf(d) ==> r == d
  {
    Card(
      u.id.GetOr(card.id),
      u.content.GetOr(card.content),
      u.description.GetOr(card.description),
      u.labels.GetOr(card.labels),
      u.dueDate.GetOr(card.dueDate),
      u.checklist.GetOr(card.checklist))
  }

  /** The update that supplies every field of `d`, as spreading the whole of `d` would. */
  function PatchOf(d: Card): CardPatch {
    CardPatch(Some(d.id), Some(d.content), Some(d.description), Some(d.labels), Some(d.dueDate), Some(d.checklist))
  }

  /** Spreading the same update twice is spreading it once. */
  lemma ApplyPatchIdempotent(card: Card, u: CardPatch)
    ensures ApplyPatch(ApplyPatch(card, u), u) == ApplyPatch(card, u)
  {
  }

  /** The filter predicates `c => c.id !== id` of the delete operations. */
  function NotCard(cardId: Id): Card -> bool {
    (c: Card) => c.id != cardId
  }

  function NotColumn(columnId: Id): Column -> bool {
    (column: Column) => column.id != columnId
  }

  function NotLabel(labelId: Id): Label -> bool {
    (l: Label) => l.id != labelId
  }

  /** The card `addCard` creates: trimmed content and every other field empty. */
  function NewCard(id: Id, content: string): Card {
    Card(id, content, "", [], None, [])
  }

  /** Appends a new card to every column with id `columnId`; blank content changes nothing. */
  function AddCard(b: Board, columnId: Id, content: string, freshId: Id): (r: Board)
    ensures IsBlank(content) || !HasColumn(b, columnId) ==> r == b
    ensures |r| == |b|
    ensures forall i :: 0 <= i < |b| ==> r[i].id == b[i].id && r[i].title == b[i].title
    ensures forall i :: 0 <= i < |b| && b[i].id != columnId ==> r[i] == b[i]
    ensures !IsBlank(content) ==>
      forall i :: 0 <= i < |b| && b[i].id == columnId ==>
        && |r[i].cards| == |b[i].cards| + 1
        && r[i].cards[..|b[i].cards|] == b[i].cards
        && r[i].cards[|b[i].cards|] == NewCard(freshId, Trim(content))
  {
    if IsBlank(content) then b
    else
      var card := NewCard(freshId, Trim(content));
      var r := Map(b, (column: Column) =>
        if column.id == columnId then column.(cards := column.cards + [card]) else column);
      assert !HasColumn(b, columnId) ==> r == b;
      assert forall i :: 0 <= i < |b| && b[i].id == columnId ==> r[i].cards[..|b[i].cards|] == b[i].cards;
      r
  }

  /** `cards.filter(c => c.id !== cardId)` */
  function RemoveCard(cards: seq<Card>, cardId: Id): (r: seq<Card>)
    ensures forall c :: c in r <==> c in cards && c.id != cardId
    ensures forall c :: multiset(r)[c] == if c.id != cardId then multiset(cards)[c] else 0
    ensures !HasCardIn(r, cardId)
    ensures HasCardIn(cards, cardId) <==> |r| < |cards|
    ensures !HasCardIn(cards, cardId) ==> r == cards
    ensures IsSubsequence(r, cards)
  {
    var r := Filter(cards, NotCard(cardId));
    FilterCount(cards, NotCard(cardId));
    FilterIsSubsequence(cards, NotCard(cardId));
    FilterKeepsAll(cards, NotCard(cardId));
    assert !HasCardIn(cards, cardId) ==> r == cards by {
      if !HasCardIn(cards, cardId) {
        FilterAll(cards, NotCard(cardId));
      }
    }
    r
  }

  /**
   Moves the first card with id `cardId` of the first column with id
   `sourceColumnId` to the end of the column(s) with id `targetColumnId`,
   removing every card with that id from the source column(s). When the
   source and target ids are equal the source branch wins: the card is
   removed and not put back.
   */
  function MoveCard(b: Board, cardId: Id, sourceColumnId: Id, targetColumnId: Id): (r: Board)
    ensures !HasColumn(b, targetColumnId) || FindCard(b, sourceColumnId, cardId).None? ==> r == b
    ensures |r| == |b|
    ensures forall i :: 0 <= i < |b| ==> r[i].id == b[i].id && r[i].title == b[i].title
    ensures forall i :: 0 <= i < |b| && b[i].id != sourceColumnId && b[i].id != targetColumnId ==> r[i] == b[i]
    ensures HasColumn(b, targetColumnId) && FindCard(b, sourceColumnId, cardId).Some? ==>
      && (forall i :: 0 <= i < |b| && b[i].id == sourceColumnId ==>
            r[i].cards == RemoveCard(b[i].cards, cardId))
      && (forall i :: 0 <= i < |b| && b[i].id == targetColumnId && targetColumnId != sourceColumnId ==>
            r[i].cards == b[i].cards + [FindCard(b, sourceColumnId, cardId).value])
  {
    var source := FindColumn(b, sourceColumnId);
    var target := FindColumn(b, targetColumnId);
    if source.None? || target.None? then b
    else
      match FindCardIn(source.value.cards, cardId)
      case None => b
      case Some(card) =>
        Map(b, (column: Column) =>
          if column.id == sourceColumnId then column.(cards := RemoveCard(column.cards, cardId))
          else if column.id == targetColumnId then column.(cards := column.cards + [card])
          else column)
  }

  /** `cards.map(card => card.id === cardId ? { ...card, ...updates } : card)` */
  function EditCardIn(cards: seq<Card>, cardId: Id, u: CardPatch): (r: seq<Card>)
    ensures |r| == |cards|
    ensures forall j :: 0 <= j < |cards| && cards[j].id != cardId ==> r[j] == cards[j]
    ensures forall j :: 0 <= j < |cards| && cards[j].id == cardId ==> r[j] == ApplyPatch(cards[j], u)
    ensures !HasCardIn(cards, cardId) ==> r == cards
  {
    Map(cards, (card: Card) => if card.id == cardId then ApplyPatch(card, u) else card)
  }

  /** Merges `u` into every card with id `cardId` in every column with id `columnId`. */
  function EditCard(b: Board, columnId: Id, cardId: Id, u: CardPatch): (r: Board)
    ensures !HasCard(b, columnId, cardId) ==> r == b
    ensures |r| == |b|
    ensures forall i :: 0 <= i < |b| ==> r[i].id == b[i].id && r[i].title == b[i].title
    ensures forall i :: 0 <= i < |b| && b[i].id != columnId ==> r[i] == b[i]
    ensures forall i :: 0 <= i < |b| && b[i].id == columnId ==> r[i].cards == EditCardIn(b[i].cards, cardId, u)
  {
    var r := Map(b, (column: Column) =>
      if column.id == columnId then column.(cards := EditCardIn(column.cards, cardId, u)) else column);
    assert !HasCard(b, columnId, cardId) ==> r == b by {
      if !HasCard(b, columnId, cardId) {
        assert forall i :: 0 <= i < |b| ==> r[i] == b[i];
      }
    }
    r
  }

  /** Removes every card with id `cardId` from every column with id `columnId`. */
  function DeleteCard(b: Board, columnId: Id, cardId: Id): (r: Board)
    ensures !HasCard(b, columnId, cardId) ==> r == b
    ensures !HasCard(r, columnId, cardId)
    ensures |r| == |b|
    ensures forall i :: 0 <= i < |b| ==> r[i].id == b[i].id && r[i].title == b[i].title
    ensures forall i :: 0 <= i < |b| && b[i].id != columnId ==> r[i] == b[i]
    ensures forall i :: 0 <= i < |b| && b[i].id == columnId ==> r[i].cards == RemoveCard(b[i].cards, cardId)
  {
    var r := Map(b, (column: Column) =>
      if column.id == columnId then column.(cards := RemoveCard(column.cards, cardId)) else column);
    assert !HasCard(b, columnId, cardId) ==> r == b by {
      if !HasCard(b, columnId, cardId) {
        assert forall i :: 0 <= i < |b| ==> r[i] == b[i];
      }
    }
    r
  }

  /** Appends an empty column titled with the trimmed title; a blank title changes nothing. */
  function AddColumn(b: Board, title: string, freshId: Id): (r: Board)
    ensures IsBlank(title) ==> r == b
    ensures !IsBlank(title) ==> |r| == |b| + 1 && r[..|b|] == b
    ensures !IsBlank(title) ==> r[|b|].id == freshId && r[|b|].cards == []
    ensures !IsBlank(title) ==> r[|b|].title == Trim(title) && |r[|b|].title| > 0
  {
    if IsBlank(title) then b
    else b + [Column(freshId, Trim(title), [])]
  }

  /** Retitles every column with id `columnId`; cards and order are untouched. */
  function EditColumn(b: Board, columnId: Id, newTitle: string): (r: Board)
    ensures !HasColumn(b, columnId) ==> r == b
    ensures |r| == |b|
    ensures forall i :: 0 <= i < |b| ==> r[i].id == b[i].id && r[i].cards == b[i].cards
    ensures forall i :: 0 <= i < |b| && b[i].id != columnId ==> r[i].title == b[i].title
    ensures forall i :: 0 <= i < |b| && b[i].id == columnId ==> r[i].title == newTitle
  {
    var r := Map(b, (column: Column) => if column.id == columnId then column.(title := newTitle) else column);
    assert !HasColumn(b, columnId) ==> r == b by {
      if !HasColumn(b, columnId) {
        assert forall i :: 0 <= i < |b| ==> r[i] == b[i];
      }
    }
    r
  }

  /** Removes every column with id `columnId`, with its cards, keeping the others in order. */
  function DeleteColumn(b: Board, columnId: Id): (r: Board)
    ensures forall c :: c in r <==> c in b && c.id != columnId
    ensures forall c :: multiset(r)[c] == if c.id != columnId then multiset(b)[c] else 0
    ensures !HasColumn(r, columnId)
    ensures HasColumn(b, columnId) <==> |r| < |b|
    ensures !HasColumn(b, columnId) ==> r == b
    ensures IsSubsequence(r, b)
  {
    var r := Filter(b, NotColumn(columnId));
    FilterCount(b, NotColumn(columnId));
    FilterIsSubsequence(b, NotColumn(columnId));
    FilterKeepsAll(b, NotColumn(columnId));
    assert !HasColumn(b, columnId) ==> r == b by {
      if !HasColumn(b, columnId) {
        FilterAll(b, NotColumn(columnId));
      }
    }
    r
  }

  /**
   `r` is `b` with every card `cardId` of every column `columnId` replaced by
   `edit` of it: column ids, titles and card counts stay, and every other
   card, in those columns and elsewhere, is untouched.
   */
  predicate RewritesMatching(b: Board, r: Board, columnId: Id, cardId: Id, edit: Card -> Card) {
    |r| == |b| &&
    forall i :: 0 <= i < |b| ==>
      && r[i].id == b[i].id && r[i].title == b[i].title
      && |r[i].cards| == |b[i].cards|
      && forall j :: 0 <= j < |b[i].cards| ==>
           r[i].cards[j] == if b[i].id == columnId && b[i].cards[j].id == cardId then edit(b[i].cards[j]) else b[i].cards[j]
  }

  /** The edit that replaces a card's checklist. */
  function WithChecklist(items: seq<ChecklistItem>): Card -> Card {
    (c: Card) => c.(checklist := items)
  }

  /** The edit that replaces a card's labels. */
  function WithLabels(labels: seq<Label>): Card -> Card {
    (c: Card) => c.(labels := labels)
  }

  /** `editCard` rewrites exactly the matching cards, each by spreading the update over it. */
  lemma EditCardRewrites(b: Board, columnId: Id, cardId: Id, u: CardPatch, edit: Card -> Card)
    requires forall c: Card :: edit(c) == ApplyPatch(c, u)
    ensures RewritesMatching(b, EditCard(b, columnId, cardId, u), columnId, cardId, edit)
  {
  }

  /**
   Sets the checklist of the matching card(s) to the checklist of the card
   `FindCard` sees (or the empty list when there is none) with a new
   unchecked item appended.
   */
  function AddChecklistItem(b: Board, columnId: Id, cardId: Id, itemId: Id, itemText: string): (r: Board)
    ensures !HasCard(b, columnId, cardId) ==> r == b
    ensures |r| == |b|
    ensures forall i :: 0 <= i < |b| && b[i].id != columnId ==> r[i] == b[i]
    ensures FindCard(b, columnId, cardId).Some? ==>
      var card := FindCard(b, columnId, cardId).value;
      FindCard(r, columnId, cardId) == Some(card.(checklist := card.checklist + [ChecklistItem(itemId, itemText, false)]))
    ensures var base := match FindCard(b, columnId, cardId) case Some(card) => card.checklist case None => [];
      RewritesMatching(b, r, columnId, cardId, WithChecklist(base + [ChecklistItem(itemId, itemText, false)]))
  {
    var base := match FindCard(b, columnId, cardId) case Some(card) => card.checklist case None => [];
    var u := SetChecklist(base + [ChecklistItem(itemId, itemText, false)]);
    FindCardAfterEdit(b, columnId, cardId, u);
    EditCardRewrites(b, columnId, cardId, u, WithChecklist(base + [ChecklistItem(itemId, itemText, false)]));
    EditCard(b, columnId, cardId, u)
  }

  /** `checklist.map(item => item.id === itemId ? { ...item, checked: !item.checked } : item)` */
  function ToggleItems(items: seq<ChecklistItem>, itemId: Id): (r: seq<ChecklistItem>)
    ensures |r| == |items|
    ensures forall k :: 0 <= k < |items| ==>
      r[k].id == items[k].id && r[k].text == items[k].text
      && (r[k].checked <==> (items[k].checked != (items[k].id == itemId)))
  {
    Map(items, (item: ChecklistItem) => if item.id == itemId then item.(checked := !item.checked) else item)
  }

  /** Flips `checked` on the items with id `itemId` of the card `FindCard` sees. */
  function ToggleChecklistItem(b: Board, columnId: Id, cardId: Id, itemId: Id): (r: Board)
    ensures FindCard(b, columnId, cardId).None? ==> r == b
    ensures |r| == |b|
    ensures forall i :: 0 <= i < |b| && b[i].id != columnId ==> r[i] == b[i]
    ensures FindCard(b, columnId, cardId).Some? ==>
      var card := FindCard(b, columnId, cardId).value;
      FindCard(r, columnId, cardId) == Some(card.(checklist := ToggleItems(card.checklist, itemId)))
    ensures FindCard(b, columnId, cardId).Some? ==>
      var card := FindCard(b, columnId, cardId).value;
      RewritesMatching(b, r, columnId, cardId, WithChecklist(ToggleItems(card.checklist, itemId)))
  {
    match FindCard(b, columnId, cardId)
    case None => b
    case Some(card) =>
      var u := SetChecklist(ToggleItems(card.checklist, itemId));
      FindCardAfterEdit(b, columnId, cardId, u);
      EditCardRewrites(b, columnId, cardId, u, WithChecklist(ToggleItems(card.checklist, itemId)));
      EditCard(b, columnId, cardId, u)
  }

  predicate HasLabelText(labels: seq<Label>, text: string) {
    Exists(labels, (l: Label) => l.text == text)
  }

  /**
   Appends `newLabel` to the card `FindCard` sees unless a label with the same
   text is already there; a missing card changes nothing.
   */
  function AddLabel(b: Board, columnId: Id, cardId: Id, newLabel: Label): (r: Board)
    ensures FindCard(b, columnId, cardId).None? ==> r == b
    ensures FindCard(b, columnId, cardId).Some? && HasLabelText(FindCard(b, columnId, cardId).value.labels, newLabel.text) ==> r == b
    ensures |r| == |b|
    ensures forall i :: 0 <= i < |b| && b[i].id != columnId ==> r[i] == b[i]
    ensures FindCard(b, columnId, cardId).Some? ==>
      var card := FindCard(b, columnId, cardId).value;
      !HasLabelText(card.labels, newLabel.text) ==>
        FindCard(r, columnId, cardId) == Some(card.(labels := card.labels + [newLabel]))
    ensures FindCard(b, columnId, cardId).Some? ==>
      var card := FindCard(b, columnId, cardId).value;
      !HasLabelText(card.labels, newLabel.text) ==>
        RewritesMatching(b, r, columnId, cardId, WithLabels(card.labels + [newLabel]))
  {
    match FindCard(b, columnId, cardId)
    case None => b
    case Some(card) =>
      if HasLabelText(card.labels, newLabel.text) then b
      else
        var u := SetLabels(card.labels + [newLabel]);
        FindCardAfterEdit(b, columnId, cardId, u);
        EditCardRewrites(b, columnId, cardId, u, WithLabels(card.labels + [newLabel]));
        EditCard(b, columnId, cardId, u)
  }

  /** `labels.filter(l => l.id !== labelId)` */
  function RemoveLabelId(labels: seq<Label>, labelId: Id): (r: seq<Label>)
    ensures forall l :: l in r <==> l in labels && l.id != labelId
    ensures forall l :: multiset(r)[l] == if l.id != labelId then multiset(labels)[l] else 0
    ensures IsSubsequence(r, labels)
  {
    FilterIsSubsequence(labels, NotLabel(labelId));
    FilterCount(labels, NotLabel(labelId));
    Filter(labels, NotLabel(labelId))
  }

  /** Removes the labels with id `labelId` from the card `FindCard` sees. */
  function RemoveLabel(b: Board, columnId: Id, cardId: Id, labelId: Id): (r: Board)
    ensures FindCard(b, columnId, cardId).None? ==> r == b
    ensures |r| == |b|
    ensures forall i :: 0 <= i < |b| && b[i].id != columnId ==> r[i] == b[i]
    ensures FindCard(b, columnId, cardId).Some? ==>
      var card := FindCard(b, columnId, cardId).value;
      FindCard(r, columnId, cardId) == Some(card.(labels := RemoveLabelId(card.labels, labelId)))
    ensures FindCard(b, columnId, cardId).Some? ==>
      var card := FindCard(b, columnId, cardId).value;
      RewritesMatching(b, r, columnId, cardId, WithLabels(RemoveLabelId(card.labels, labelId)))
  {
    match FindCard(b, columnId, cardId)
    case None => b
    case Some(card) =>
      var u := SetLabels(RemoveLabelId(card.labels, labelId));
      FindCardAfterEdit(b, columnId, cardId, u);
      EditCardRewrites(b, columnId, cardId, u, WithLabels(RemoveLabelId(card.labels, labelId)));
      EditCard(b, columnId, cardId, u)
  }

  /** The checklist form's submit handler: a blank entry is ignored, otherwise the UNtrimmed text is added. */
  function SubmitChecklistItem(b: Board, columnId: Id, cardId: Id, itemId: Id, input: string): (r: Board)
    ensures IsBlank(input) ==> r == b
    ensures !IsBlank(input) && FindCard(b, columnId, cardId).Some? ==>
      var card := FindCard(b, columnId, cardId).value;
      FindCard(r, columnId, cardId) == Some(card.(checklist := card.checklist + [ChecklistItem(itemId, input, false)]))
    ensures !IsBlank(input) ==>
      var base := match FindCard(b, columnId, cardId) case Some(card) => card.checklist case None => [];
      RewritesMatching(b, r, columnId, cardId, WithChecklist(base + [ChecklistItem(itemId, input, false)]))
  {
    if IsBlank(input) then b else AddChecklistItem(b, columnId, cardId, itemId, input)
  }

  /**
   An edit that keeps ids does not change which card `FindCard` sees: it sees
   the same card with the patch applied.
   */
  lemma FindCardAfterEdit(b: Board, columnId: Id, cardId: Id, u: CardPatch)
    requires u.id.None?
    ensures FindCard(EditCard(b, columnId, cardId, u), columnId, cardId)
      == match FindCard(b, columnId, cardId) case Some(c) => Some(ApplyPatch(c, u)) case None => None
  {
    var r := EditCard(b, columnId, cardId, u);
    ColumnIndexSameIds(b, r, columnId);
    var k := ColumnIndex(b, columnId);
    if k < |b| {
      var edited := EditCardIn(b[k].cards, cardId, u);
      assert r[k].cards == edited;
      CardIndexSameIds(b[k].cards, edited, cardId);
    }
  }
}

=== FILE: card_detail_lemmas.dfy ===
/**
 Labels and checklists: adding a label is idempotent by text and keeps label
 texts distinct, removing a label undoes adding it, and toggling a checklist
 item twice restores the board.
 */
module CardDetailLemmas {
  import opened Wrappers
  import opened JsArray
  import opened Board
  import opened BoardOps
  import opened CardStatus
  import CrudLemmas

  /** The card `FindCard` returns is the one stored at the first matching column and card positions. */
  lemma FindCardOnBoard(b: Board, columnId: Id, cardId: Id)
    requires FindCard(b, columnId, cardId).Some?
    ensures var i := ColumnIndex(b, columnId);
      i < |b| && CardIndex(b[i].cards, cardId) < |b[i].cards|
      && FindCard(b, columnId, cardId).value == b[i].cards[CardIndex(b[i].cards, cardId)]
  {
  }

  /** With distinct ids, the card `FindCard` returns is the only one the column and card ids match. */
  lemma OnlyMatch(b: Board, columnId: Id, cardId: Id, i: nat, j: nat)
    requires WellFormed(b) && FindCard(b, columnId, cardId).Some?
    requires i < |b| && b[i].id == columnId && j < |b[i].cards| && b[i].cards[j].id == cardId
    ensures b[i].cards[j] == FindCard(b, columnId, cardId).value
  {
    FindCardOnBoard(b, columnId, cardId);
    var s := ColumnIndex(b, columnId);
    assert i == s;
    assert j == CardIndex(b[i].cards, cardId);
  }

  /** With distinct ids, an edit that leaves the one matching card as it is changes nothing. */
  lemma EditCardNoOp(b: Board, columnId: Id, cardId: Id, u: CardPatch)
    requires WellFormed(b) && FindCard(b, columnId, cardId).Some?
    requires ApplyPatch(FindCard(b, columnId, cardId).value, u) == FindCard(b, columnId, cardId).value
    ensures EditCard(b, columnId, cardId, u) == b
  {
    var r := EditCard(b, columnId, cardId, u);
    forall i | 0 <= i < |b| ensures r[i] == b[i] {
      if b[i].id == columnId {
        forall j | 0 <= j < |b[i].cards| ensures r[i].cards[j] == b[i].cards[j] {
          if b[i].cards[j].id == cardId {
            OnlyMatch(b, columnId, cardId, i, j);
          }
        }
      }
    }
  }

  /** No two labels of a card share a text. */
  predicate LabelTextsDistinct(labels: seq<Label>) {
    forall i, j :: 0 <= i < j < |labels| ==> labels[i].text != labels[j].text
  }

  /** Every card on the board has distinct label texts. */
  predicate BoardLabelTextsDistinct(b: Board) {
    forall i, j :: 0 <= i < |b| && 0 <= j < |b[i].cards| ==> LabelTextsDistinct(b[i].cards[j].labels)
  }

  /** A second `AddLabel` with the same text changes nothing: a card never gets two labels with one text this way. */
  lemma AddLabelIdempotent(b: Board, columnId: Id, cardId: Id, l1: Label, l2: Label)
    requires l2.text == l1.text
    ensures var r := AddLabel(b, columnId, cardId, l1);
      AddLabel(r, columnId, cardId, l2) == r
    ensures FindCard(b, columnId, cardId).Some? && !HasLabelText(FindCard(b, columnId, cardId).value.labels, l1.text) ==>
      var card := FindCard(b, columnId, cardId).value;
      FindCard(AddLabel(AddLabel(b, columnId, cardId, l1), columnId, cardId, l2), columnId, cardId)
        == Some(card.(labels := card.labels + [l1]))
  {
    var r := AddLabel(b, columnId, cardId, l1);
    match FindCard(b, columnId, cardId)
    case None =>
      assert r == b;
    case Some(card) =>
      if !HasLabelText(card.labels, l1.text) {
        var labels := card.labels + [l1];
        assert FindCard(r, columnId, cardId) == Some(card.(labels := labels));
        assert labels[|card.labels|].text == l2.text;
        assert HasLabelText(labels, l2.text);
        assert AddLabel(r, columnId, cardId, l2) == r;
      } else {
        assert r == b;
      }
  }

  /** Setting the labels of the matching cards to a list with distinct texts keeps every card's texts distinct. */
  lemma SetLabelsKeepsTextsDistinct(b: Board, columnId: Id, cardId: Id, labels: seq<Label>)
    requires BoardLabelTextsDistinct(b) && LabelTextsDistinct(labels)
    ensures BoardLabelTextsDistinct(EditCard(b, columnId, cardId, SetLabels(labels)))
  {
    var r := EditCard(b, columnId, cardId, SetLabels(labels));
    forall i, j | 0 <= i < |r| && 0 <= j < |r[i].cards| ensures LabelTextsDistinct(r[i].cards[j].labels) {
      if b[i].id == columnId {
        assert r[i].cards == EditCardIn(b[i].cards, cardId, SetLabels(labels));
      }
    }
  }

  /** Appending a label whose text is new keeps the texts distinct. */
  lemma AppendLabelKeepsTextsDistinct(labels: seq<Label>, newLabel: Label)
    requires LabelTextsDistinct(labels) && !HasLabelText(labels, newLabel.text)
    ensures LabelTextsDistinct(labels + [newLabel])
  {
    var r := labels + [newLabel];
    forall i, j | 0 <= i < j < |r| ensures r[i].text != r[j].text {
      if j == |labels| {
        assert r[i] == labels[i];
      }
    }
  }

  /** `AddLabel` keeps label texts distinct on every card. */
  lemma AddLabelKeepsTextsDistinct(b: Board, columnId: Id, cardId: Id, newLabel: Label)
    requires BoardLabelTextsDistinct(b)
    ensures BoardLabelTextsDistinct(AddLabel(b, columnId, cardId, newLabel))
  {
    match FindCard(b, columnId, cardId)
    case None =>
    case Some(card) =>
      if !HasLabelText(card.labels, newLabel.text) {
        FindCardOnBoard(b, columnId, cardId);
        AppendLabelKeepsTextsDistinct(card.labels, newLabel);
        SetLabelsKeepsTextsDistinct(b, columnId, cardId, card.labels + [newLabel]);
      }
  }

  /** `RemoveLabel` keeps label texts distinct on every card. */
  lemma RemoveLabelKeepsTextsDistinct(b: Board, columnId: Id, cardId: Id, labelId: Id)
    requires BoardLabelTextsDistinct(b)
    ensures BoardLabelTextsDistinct(RemoveLabel(b, columnId, cardId, labelId))
  {
    match FindCard(b, columnId, cardId)
    case None =>
    case Some(card) =>
      FindCardOnBoard(b, columnId, cardId);
      FilterKeepsPairwise(card.labels, NotLabel(labelId), (x: Label, y: Label) => x.text != y.text);
      SetLabelsKeepsTextsDistinct(b, columnId, cardId, RemoveLabelId(card.labels, labelId));
  }

  /** Filtering out the id of a label just appended leaves the labels that were there, when none had that id. */
  lemma RemoveAppendedLabel(labels: seq<Label>, newLabel: Label)
    requires forall l :: l in labels ==> l.id != newLabel.id
    ensures RemoveLabelId(labels + [newLabel], newLabel.id) == labels
    ensures RemoveLabelId(labels, newLabel.id) == labels
  {
    FilterAll(labels, NotLabel(newLabel.id));
    FilterAppend(labels, [newLabel], NotLabel(newLabel.id));
    assert Filter([newLabel], NotLabel(newLabel.id)) == [];
  }

  /**
   Removing, by id, a label just added takes the card back to what it was,
   provided no label of the card already had that id.
   */
  lemma RemoveLabelUndoesAddLabel(b: Board, columnId: Id, cardId: Id, newLabel: Label)
    requires FindCard(b, columnId, cardId).Some?
    requires forall l :: l in FindCard(b, columnId, cardId).value.labels ==> l.id != newLabel.id
    ensures FindCard(RemoveLabel(AddLabel(b, columnId, cardId, newLabel), columnId, cardId, newLabel.id), columnId, cardId)
      == FindCard(b, columnId, cardId)
  {
    RemoveAppendedLabel(FindCard(b, columnId, cardId).value.labels, newLabel);
  }

  /** With distinct ids, the undo holds for the whole board. */
  lemma RemoveLabelUndoesAddLabelOnBoard(b: Board, columnId: Id, cardId: Id, newLabel: Label)
    requires WellFormed(b) && FindCard(b, columnId, cardId).Some?
    requires forall l :: l in FindCard(b, columnId, cardId).value.labels ==> l.id != newLabel.id
    ensures RemoveLabel(AddLabel(b, columnId, cardId, newLabel), columnId, cardId, newLabel.id) == b
  {
    var card := FindCard(b, columnId, cardId).value;
    RemoveAppendedLabel(card.labels, newLabel);
    if !HasLabelText(card.labels, newLabel.text) {
      RemoveNewLabel(b, columnId, cardId, newLabel);
    } else {
      EditCardNoOp(b, columnId, cardId, SetLabels(card.labels));
    }
  }

  /** The undo when the label's text was new, so that `AddLabel` did append it. */
  lemma RemoveNewLabel(b: Board, columnId: Id, cardId: Id, newLabel: Label)
    requires WellFormed(b) && FindCard(b, columnId, cardId).Some?
    requires !HasLabelText(FindCard(b, columnId, cardId).value.labels, newLabel.text)
    requires var labels := FindCard(b, columnId, cardId).value.labels;
      RemoveLabelId(labels + [newLabel], newLabel.id) == labels
    ensures RemoveLabel(AddLabel(b, columnId, cardId, newLabel), columnId, cardId, newLabel.id) == b
  {
    var card := FindCard(b, columnId, cardId).value;
    var u := SetLabels(card.labels + [newLabel]);
    var v := SetLabels(card.labels);
    var a := AddLabel(b, columnId, cardId, newLabel);
    assert a == EditCard(b, columnId, cardId, u);
    assert RemoveLabel(a, columnId, cardId, newLabel.id) == EditCard(a, columnId, cardId, v);
    CrudLemmas.EditCardMerge(b, columnId, cardId, u, v);
    assert CrudLemmas.MergePatches(u, v) == v;
    EditCardNoOp(b, columnId, cardId, v);
  }

  /** Toggling an item twice gives back the checklist. */
  lemma ToggleItemsInvolution(items: seq<ChecklistItem>, itemId: Id)
    ensures ToggleItems(ToggleItems(items, itemId), itemId) == items
  {
    var r := ToggleItems(ToggleItems(items, itemId), itemId);
    forall k | 0 <= k < |items| ensures r[k] == items[k] {
    }
  }

  /** With distinct ids, toggling the same checklist item twice gives back the board. */
  lemma ToggleTwiceRestores(b: Board, columnId: Id, cardId: Id, itemId: Id)
    requires WellFormed(b)
    ensures ToggleChecklistItem(ToggleChecklistItem(b, columnId, cardId, itemId), columnId, cardId, itemId) == b
  {
    match FindCard(b, columnId, cardId)
    case None =>
    case Some(card) =>
      var u := SetChecklist(ToggleItems(card.checklist, itemId));
      var a := ToggleChecklistItem(b, columnId, cardId, itemId);
      assert a == EditCard(b, columnId, cardId, u);
      ToggleItemsInvolution(card.checklist, itemId);
      var v := SetChecklist(card.checklist);
      assert ToggleChecklistItem(a, columnId, cardId, itemId) == EditCard(a, columnId, cardId, v);
      CrudLemmas.EditCardMerge(b, columnId, cardId, u, v);
      assert CrudLemmas.MergePatches(u, v) == v;
      EditCardNoOp(b, columnId, cardId, v);
  }

  /** A freshly added item is unchecked, so the card is no longer complete. */
  lemma AddChecklistItemUncompletes(b: Board, columnId: Id, cardId: Id, itemId: Id, itemText: string, today: Day)
    requires FindCard(b, columnId, cardId).Some?
    ensures var card := FindCard(AddChecklistItem(b, columnId, cardId, itemId, itemText), columnId, cardId).value;
      ChecklistProgress(card.checklist) < 100.0 && CardColor(card, today) != CompletedClass
  {
    var before := FindCard(b, columnId, cardId).value;
    var items := before.checklist + [ChecklistItem(itemId, itemText, false)];
    assert !items[|before.checklist|].checked;
    assert !AllChecked(items);
  }
}

=== FILE: card_status.dfy ===
/**
 What a card shows without changing anything: its checklist progress and the
 background class that flags it as completed, overdue or due soon.
 */
module CardStatus {
  import opened JsArray
  import opened Board

  function CheckedItems(items: seq<ChecklistItem>): seq<ChecklistItem> {
    Filter(items, (item: ChecklistItem) => item.checked)
  }

  /** The number of checked items, counted one by one. */
  function CountChecked(items: seq<ChecklistItem>): (n: nat)
    ensures n <= |items|
  {
    if |items| == 0 then 0 else (if items[0].checked then 1 else 0) + CountChecked(items[1..])
  }

  /** `checklist.filter(item => item.checked).length` is the number of checked items. */
  lemma {:induction false} CheckedItemsCount(items: seq<ChecklistItem>)
    ensures |CheckedItems(items)| == CountChecked(items)
  {
    if |items| > 0 {
      CheckedItemsCount(items[1..]);
    }
  }

  predicate AllChecked(items: seq<ChecklistItem>) {
    Every(items, (item: ChecklistItem) => item.checked)
  }

  predicate NoneChecked(items: seq<ChecklistItem>) {
    forall k :: 0 <= k < |items| ==> !items[k].checked
  }

  /**
   Percentage of checked items, 0 for an empty checklist: the number of
   checked items over the number of items, times 100. It is 100 exactly when
   every item is checked and 0 exactly when none is.
   */
  function ChecklistProgress(items: seq<ChecklistItem>): (r: real)
    ensures |items| == 0 ==> r == 0.0
    ensures 0.0 <= r <= 100.0
    ensures |items| > 0 ==> (r == 100.0 <==> AllChecked(items))
    ensures r == 0.0 <==> NoneChecked(items)
    ensures |items| > 0 ==> r == (CountChecked(items) as real / |items| as real) * 100.0
  {
    if |items| == 0 then 0.0
    else
      var checked := |CheckedItems(items)|;
      FilterKeepsAll(items, (item: ChecklistItem) => item.checked);
      ProgressBounds(checked, |items|);
      CheckedItemsCount(items);
      CheckedNone(items);
      (checked as real / |items| as real) * 100.0
  }

  /** The filtered list is empty exactly when no item is checked. */
  lemma CheckedNone(items: seq<ChecklistItem>)
    ensures |CheckedItems(items)| == 0 <==> NoneChecked(items)
  {
    if |CheckedItems(items)| > 0 {
      assert CheckedItems(items)[0] in CheckedItems(items);
    } else {
      forall k | 0 <= k < |items| ensures !items[k].checked {
        assert items[k] in items;
      }
    }
  }

  /** `c / n * 100` lies in [0, 100], hits 100 only at `c == n` and 0 only at `c == 0`. */
  lemma ProgressBounds(c: nat, n: nat)
    requires 0 < n && c <= n
    ensures 0.0 <= (c as real / n as real) * 100.0 <= 100.0
    ensures (c as real / n as real) * 100.0 == 100.0 <==> c == n
    ensures (c as real / n as real) * 100.0 == 0.0 <==> c == 0
  {
    var q := c as real / n as real;
    assert q * n as real == c as real;
    assert q <= 1.0 by {
      if q > 1.0 { assert q * n as real > n as real; }
    }
  }

  const CompletedClass := "bg-green-100"
  const OverdueClass := "bg-red-100"
  const DueSoonClass := "bg-orange-100"
  const PlainClass := ""

  /**
   The card's background class on day `today`: completed (a non-empty,
   fully checked checklist) wins over overdue (due before today), which wins
   over due soon (due within the next three days).
   */
  function CardColor(card: Card, today: Day): (r: string)
    ensures r == CompletedClass <==> |card.checklist| > 0 && ChecklistProgress(card.checklist) == 100.0
    ensures r == OverdueClass <==>
      r != CompletedClass && card.dueDate.Some? && card.dueDate.value < today
    ensures r == DueSoonClass <==>
      r != CompletedClass && card.dueDate.Some? && today <= card.dueDate.value <= today + 3
    ensures r == PlainClass <==>
      r != CompletedClass && (card.dueDate.None? || card.dueDate.value > today + 3)
  {
    if |card.checklist| > 0 && AllChecked(card.checklist) then CompletedClass
    else if card.dueDate.Some? then
      var due := card.dueDate.value;
      if due < today then OverdueClass
      else if due <= today + 3 then DueSoonClass
      else PlainClass
    else PlainClass
  }

  /** How pressing a class is: plain < due soon < overdue. */
  function Urgency(color: string): nat {
    if color == OverdueClass then 2 else if color == DueSoonClass then 1 else 0
  }
}

=== FILE: crud_lemmas.dfy ===
/**
 How the create, edit and delete operations on columns and cards relate:
 deleting undoes adding, later edits override earlier ones field by field,
 a deleted column can no longer be reached, and the identity invariant
 survives every operation given fresh ids.
 */
module CrudLemmas {
  import opened JsArray
  import opened JsString
  import opened Board
  import opened BoardOps

  /** Deleting a column just added under a fresh id gives back the original board. */
  lemma DeleteColumnUndoesAddColumn(b: Board, title: string, freshId: Id)
    requires !HasColumn(b, freshId)
    ensures DeleteColumn(AddColumn(b, title, freshId), freshId) == b
  {
    if !IsBlank(title) {
      var column := Column(freshId, Trim(title), []);
      FilterAppend(b, [column], NotColumn(freshId));
      assert DeleteColumn(b, freshId) == b;
      assert Filter([column], NotColumn(freshId)) == [];
    }
  }

  /** Deleting the card just added under an id the column did not hold gives back the original board. */
  lemma DeleteCardUndoesAddCard(b: Board, columnId: Id, content: string, freshId: Id)
    requires !HasCard(b, columnId, freshId)
    ensures DeleteCard(AddCard(b, columnId, content, freshId), columnId, freshId) == b
  {
    var a := AddCard(b, columnId, content, freshId);
    var r := DeleteCard(a, columnId, freshId);
    if !IsBlank(content) {
      var card := NewCard(freshId, Trim(content));
      forall i | 0 <= i < |b| ensures r[i] == b[i] {
        if b[i].id == columnId {
          assert a[i].cards == b[i].cards + [card];
          FilterAppend(b[i].cards, [card], NotCard(freshId));
          assert !HasCardIn(b[i].cards, freshId);
          assert RemoveCard(b[i].cards, freshId) == b[i].cards;
          assert Filter([card], NotCard(freshId)) == [];
          assert r[i].cards == b[i].cards;
        }
      }
    }
  }

  /** With distinct column ids, adding a card to an existing column adds exactly that one card to the board. */
  lemma AddCardAddsOneCard(b: Board, columnId: Id, content: string, freshId: Id)
    requires UniqueColumnIds(b) && HasColumn(b, columnId) && !IsBlank(content)
    ensures CardBag(AddCard(b, columnId, content, freshId)) == CardBag(b) + multiset{NewCard(freshId, Trim(content))}
  {
    var r := AddCard(b, columnId, content, freshId);
    var s := ColumnIndex(b, columnId);
    var card := NewCard(freshId, Trim(content));
    forall j | 0 <= j < |b| ensures b[s := r[s]][j] == r[j] {
      if j != s { assert b[j].id != columnId; }
    }
    assert r == b[s := r[s]];
    assert r[s].cards == b[s].cards + [card];
    CardBagGrow(b, s, r[s], multiset{card});
  }

  /** Replacing one column by one holding `extra` more cards adds `extra` to the board's cards. */
  lemma CardBagGrow(b: Board, s: nat, column: Column, extra: multiset<Card>)
    requires s < |b| && multiset(column.cards) == multiset(b[s].cards) + extra
    ensures CardBag(b[s := column]) == CardBag(b) + extra
  {
    CardBagUpdate(b, s, column);
    var r := b[s := column];
    forall x ensures CardBag(r)[x] == (CardBag(b) + extra)[x] {
      assert (CardBag(r) + multiset(b[s].cards))[x] == (CardBag(b) + multiset(column.cards))[x];
    }
  }

  /** Once a column is deleted, nothing can reach it or its cards: every operation naming it is a no-op. */
  lemma DeletedColumnIsUnreachable(b: Board, columnId: Id, cardId: Id, u: CardPatch, other: Id, content: string, freshId: Id, l: Label)
    ensures var d := DeleteColumn(b, columnId);
      && FindCard(d, columnId, cardId).None?
      && EditCard(d, columnId, cardId, u) == d
      && DeleteCard(d, columnId, cardId) == d
      && AddCard(d, columnId, content, freshId) == d
      && EditColumn(d, columnId, content) == d
      && MoveCard(d, cardId, columnId, other) == d
      && MoveCard(d, cardId, other, columnId) == d
      && AddChecklistItem(d, columnId, cardId, freshId, content) == d
      && ToggleChecklistItem(d, columnId, cardId, freshId) == d
      && AddLabel(d, columnId, cardId, l) == d
      && RemoveLabel(d, columnId, cardId, freshId) == d
      && DeleteColumn(d, columnId) == d
  {
  }

  /** Retitling twice is retitling once with the later title. */
  lemma EditColumnLastWriteWins(b: Board, columnId: Id, t1: string, t2: string)
    ensures EditColumn(EditColumn(b, columnId, t1), columnId, t2) == EditColumn(b, columnId, t2)
  {
    var r1 := EditColumn(EditColumn(b, columnId, t1), columnId, t2);
    var r2 := EditColumn(b, columnId, t2);
    forall i | 0 <= i < |b| ensures r1[i] == r2[i] {
      if b[i].id == columnId {
        assert r1[i].title == r2[i].title;
      }
    }
  }

  /** `{ ...u, ...v }`: the fields `v` supplies win over those of `u`. */
  function MergePatches(u: CardPatch, v: CardPatch): (w: CardPatch)
    ensures w.id.None? <==> u.id.None? && v.id.None?
  {
    CardPatch(
      if v.id.Some? then v.id else u.id,
      if v.content.Some? then v.content else u.content,
      if v.description.Some? then v.description else u.description,
      if v.labels.Some? then v.labels else u.labels,
      if v.dueDate.Some? then v.dueDate else u.dueDate,
      if v.checklist.Some? then v.checklist else u.checklist)
  }

  /** Spreading two updates one after the other is spreading their merge. */
  lemma ApplyPatchMerge(card: Card, u: CardPatch, v: CardPatch)
    ensures ApplyPatch(ApplyPatch(card, u), v) == ApplyPatch(card, MergePatches(u, v))
    ensures ApplyPatch(card, NoChanges) == card
  {
  }

  /**
   Two edits of the same card are one edit with the merged update, as long as
   the first keeps the card's id (so the second still finds it).
   */
  lemma EditCardMerge(b: Board, columnId: Id, cardId: Id, u: CardPatch, v: CardPatch)
    requires u.id.None?
    ensures EditCard(EditCard(b, columnId, cardId, u), columnId, cardId, v)
      == EditCard(b, columnId, cardId, MergePatches(u, v))
  {
    var r1 := EditCard(EditCard(b, columnId, cardId, u), columnId, cardId, v);
    var r2 := EditCard(b, columnId, cardId, MergePatches(u, v));
    forall i | 0 <= i < |b| ensures r1[i] == r2[i] {
      if b[i].id == columnId {
        var cards := b[i].cards;
        forall j | 0 <= j < |cards| ensures r1[i].cards[j] == r2[i].cards[j] {
          if cards[j].id == cardId {
            ApplyPatchMerge(cards[j], u, v);
          }
        }
      }
    }
  }

  /** Adding a column under an id no column has keeps the identity invariant. */
  lemma AddColumnKeepsWellFormed(b: Board, title: string, freshId: Id)
    requires WellFormed(b) && !HasColumn(b, freshId)
    ensures WellFormed(AddColumn(b, title, freshId))
  {
  }

  /** Appending a card whose id the column does not hold keeps the column's ids distinct. */
  lemma AppendKeepsUniqueCardIds(cards: seq<Card>, card: Card)
    requires UniqueCardIds(cards) && !HasCardIn(cards, card.id)
    ensures UniqueCardIds(cards + [card])
  {
    var r := cards + [card];
    forall i, j | 0 <= i < j < |r| ensures r[i].id != r[j].id {
      assert r[i] == cards[i];
      if j < |cards| { assert r[j] == cards[j]; }
    }
  }

  /** Removing cards keeps the column's ids distinct. */
  lemma RemoveKeepsUniqueCardIds(cards: seq<Card>, cardId: Id)
    requires UniqueCardIds(cards)
    ensures UniqueCardIds(RemoveCard(cards, cardId))
  {
    FilterKeepsPairwise(cards, NotCard(cardId), (x: Card, y: Card) => x.id != y.id);
  }

  /** Adding a card under an id its column does not hold keeps the identity invariant. */
  lemma AddCardKeepsWellFormed(b: Board, columnId: Id, content: string, freshId: Id)
    requires WellFormed(b) && !HasCard(b, columnId, freshId)
    ensures WellFormed(AddCard(b, columnId, content, freshId))
  {
    var r := AddCard(b, columnId, content, freshId);
    forall i | 0 <= i < |r| ensures UniqueCardIds(r[i].cards) {
      if b[i].id == columnId && !IsBlank(content) {
        var card := NewCard(freshId, Trim(content));
        assert r[i].cards == b[i].cards + [card];
        AppendKeepsUniqueCardIds(b[i].cards, card);
      }
    }
  }

  /** Deleting a column keeps ids distinct: the columns that remain are a subsequence. */
  lemma DeleteColumnKeepsWellFormed(b: Board, columnId: Id)
    requires WellFormed(b)
    ensures WellFormed(DeleteColumn(b, columnId))
  {
    FilterKeepsPairwise(b, NotColumn(columnId), (x: Column, y: Column) => x.id != y.id);
  }

  /** Deleting a card keeps ids distinct. */
  lemma DeleteCardKeepsWellFormed(b: Board, columnId: Id, cardId: Id)
    requires WellFormed(b)
    ensures WellFormed(DeleteCard(b, columnId, cardId))
  {
    var r := DeleteCard(b, columnId, cardId);
    forall i | 0 <= i < |r| ensures UniqueCardIds(r[i].cards) {
      RemoveKeepsUniqueCardIds(b[i].cards, cardId);
    }
  }

  /** Moving a card into a column that does not already hold its id keeps the identity invariant. */
  lemma MoveCardKeepsWellFormed(b: Board, cardId: Id, sourceColumnId: Id, targetColumnId: Id)
    requires WellFormed(b)
    requires !HasCard(b, targetColumnId, cardId)
    ensures WellFormed(MoveCard(b, cardId, sourceColumnId, targetColumnId))
  {
    var r := MoveCard(b, cardId, sourceColumnId, targetColumnId);
    forall i | 0 <= i < |r| ensures UniqueCardIds(r[i].cards) {
      if r != b && b[i].id == sourceColumnId {
        RemoveKeepsUniqueCardIds(b[i].cards, cardId);
      } else if r != b && b[i].id == targetColumnId {
        var card := FindCard(b, sourceColumnId, cardId).value;
        AppendKeepsUniqueCardIds(b[i].cards, card);
      }
    }
  }
}

=== FILE: drag_drop.dfy ===
/**
 The gesture layer in front of `MoveCard`: a single slot remembering the
 card a touch started on, and the two drop paths (touch end and mouse drop)
 that both end in the same guarded call.
 */
module DragDrop {
  import opened Board
  import opened BoardOps
  import opened MoveLemmas

  /** The `draggedCard` state: empty, or the card and column a touch started on. */
  datatype Slot = Idle | Dragging(cardId: Id, columnId: Id)

  datatype UiState = UiState(board: Board, slot: Slot)

  /** The tail both drop paths share: move only when both ids are non-empty strings. */
  function Drop(b: Board, cardId: Id, sourceColumnId: Id, targetColumnId: Id): (r: Board)
    ensures cardId == "" || sourceColumnId == "" ==> r == b
    ensures !HasColumn(b, targetColumnId) ==> r == b
    ensures |r| == |b|
  {
    if cardId != "" && sourceColumnId != "" then MoveCard(b, cardId, sourceColumnId, targetColumnId) else b
  }

  /** A touch starting on a card fills the slot, discarding whatever it held. */
  function TouchStart(s: UiState, cardId: Id, columnId: Id): (r: UiState)
    ensures r.board == s.board
    ensures r.slot.Dragging? && r.slot.cardId == cardId && r.slot.columnId == columnId
  {
    s.(slot := Dragging(cardId, columnId))
  }

  /**
   A touch ending over column `targetColumnId` empties the slot and drops
   what it held. With an empty slot the handler falls through to the mouse
   path, which reads `dataTransfer` that a touch event does not have, and
   stops with a TypeError before changing anything.
   */
  function TouchEnd(s: UiState, targetColumnId: Id): (r: UiState)
    ensures r.slot == Idle
    ensures s.slot.Idle? ==> r == s
    ensures s.slot.Dragging? ==> r.board == Drop(s.board, s.slot.cardId, s.slot.columnId, targetColumnId)
  {
    match s.slot
    case Idle => s
    case Dragging(cardId, columnId) => UiState(Drop(s.board, cardId, columnId, targetColumnId), Idle)
  }

  /**
   A mouse drop over column `targetColumnId`: the card and column ids come
   from the drag's `dataTransfer` (empty strings when absent); the touch slot
   is not consulted and not cleared.
   */
  function MouseDrop(s: UiState, transferCardId: Id, transferColumnId: Id, targetColumnId: Id): (r: UiState)
    ensures r.slot == s.slot
    ensures r.board == Drop(s.board, transferCardId, transferColumnId, targetColumnId)
  {
    s.(board := Drop(s.board, transferCardId, transferColumnId, targetColumnId))
  }

  /** A touch gesture from a card to a column is exactly one `MoveCard` when both ids are non-empty. */
  lemma TouchGestureMoves(s: UiState, cardId: Id, columnId: Id, targetColumnId: Id)
    requires cardId != "" && columnId != ""
    ensures TouchEnd(TouchStart(s, cardId, columnId), targetColumnId)
      == UiState(MoveCard(s.board, cardId, columnId, targetColumnId), Idle)
  {
  }

  /** The two input paths agree: a touch gesture and a mouse drop carrying the same ids make the same move. */
  lemma GesturesAgree(s: UiState, cardId: Id, columnId: Id, targetColumnId: Id)
    ensures TouchEnd(TouchStart(s, cardId, columnId), targetColumnId).board
      == MouseDrop(s, cardId, columnId, targetColumnId).board
  {
  }

  /** Only the latest touch start counts: at most one card is tracked at a time. */
  lemma LatestTouchWins(s: UiState, c1: Id, k1: Id, c2: Id, k2: Id, targetColumnId: Id)
    ensures TouchEnd(TouchStart(TouchStart(s, c1, k1), c2, k2), targetColumnId)
      == TouchEnd(TouchStart(s, c2, k2), targetColumnId)
  {
  }

  /** A touch end consumes the slot: a second one changes nothing. */
  lemma TouchEndConsumes(s: UiState, t1: Id, t2: Id)
    ensures TouchEnd(TouchEnd(s, t1), t2) == TouchEnd(s, t1)
  {
  }

  /**
   The touch gesture as the component wires it: `onTouchEnd` sits on the
   column that renders the touched card, and a touch end goes to the element
   the touch started on, so the drop target is always the card's own column.
   That takes the same-column branch of `MoveCard`, which loses the card.
   */
  lemma TouchGestureAsWired(s: UiState, cardId: Id, columnId: Id)
    requires cardId != "" && columnId != ""
    requires FindCard(s.board, columnId, cardId).Some?
    ensures var r := TouchEnd(TouchStart(s, cardId, columnId), columnId);
      var i := ColumnIndex(s.board, columnId);
      && r.slot == Idle
      && |r.board[i].cards| < |s.board[i].cards|
      && !HasCardIn(r.board[i].cards, cardId)
  {
    MoveCardSameColumnLosesCard(s.board, cardId, columnId);
  }
}

=== FILE: js_array.dfy ===
/**
 The array methods the board code is written with (`map`, `filter`, `find`,
 `findIndex`, `some`, `every`) as pure functions over sequences, each with the
 contract that characterises it independently of how it is computed.
 */
module JsArray {
  import opened Wrappers

  /** `s.map(f)` */
  function Map<T, U>(s: seq<T>, f: T -> U): (r: seq<U>)
    ensures |r| == |s|
    ensures forall i :: 0 <= i < |s| ==> r[i] == f(s[i])
  {
    if |s| == 0 then [] else [f(s[0])] + Map(s[1..], f)
  }

  /** `s.filter(p)`: exactly the elements satisfying `p` (`FilterCount` adds: each as often as in `s`). */
  function Filter<T(!new)>(s: seq<T>, p: T -> bool): (r: seq<T>)
    ensures |r| <= |s|
    ensures forall x :: x in r <==> x in s && p(x)
  {
    if |s| == 0 then []
    else
      var rest := Filter(s[1..], p);
      assert s == [s[0]] + s[1..];
      if p(s[0]) then [s[0]] + rest else rest
  }

  /** A filter keeps every element that passes as often as it occurs, and no other. */
  lemma {:induction false} FilterCount<T(!new)>(s: seq<T>, p: T -> bool)
    ensures forall x :: multiset(Filter(s, p))[x] == if p(x) then multiset(s)[x] else 0
  {
    if |s| > 0 {
      FilterCount(s[1..], p);
      assert s == [s[0]] + s[1..];
      assert multiset(s) == multiset{s[0]} + multiset(s[1..]);
    }
  }

  /**
   `a` can be obtained from `b` by deleting elements: the elements of `a`
   occur in `b` in the same relative order.
   */
  ghost predicate IsSubsequence<T>(a: seq<T>, b: seq<T>)
    decreases |b|
  {
    if |a| == 0 then true
    else if |b| == 0 then false
    else if a[0] == b[0] then IsSubsequence(a[1..], b[1..])
    else IsSubsequence(a, b[1..])
  }

  /** A filter deletes elements and never reorders the ones it keeps. */
  lemma {:induction false} FilterIsSubsequence<T(!new)>(s: seq<T>, p: T -> bool)
    ensures IsSubsequence(Filter(s, p), s)
  {
    if |s| > 0 {
      FilterIsSubsequence(s[1..], p);
      if !p(s[0]) && |Filter(s[1..], p)| > 0 {
        SubsequenceSkip(Filter(s[1..], p), s);
      }
    }
  }

  /** Dropping the head of `b` keeps a subsequence of its tail a subsequence of `b`. */
  lemma {:induction false} SubsequenceSkip<T>(a: seq<T>, b: seq<T>)
    requires |b| > 0 && IsSubsequence(a, b[1..])
    ensures IsSubsequence(a, b)
    decreases |b|
  {
    if |a| > 0 && a[0] == b[0] {
      SubsequenceTail(a, b[1..]);
      assert b[1..][1..] == b[2..];
      SubsequenceSkip(a[1..], b[1..]);
    }
  }

  /** A subsequence of `b` with its head dropped is still a subsequence of `b`'s tail. */
  lemma {:induction false} SubsequenceTail<T>(a: seq<T>, b: seq<T>)
    requires |a| > 0 && IsSubsequence(a, b)
    ensures |b| > 0 && IsSubsequence(a[1..], b[1..])
    decreases |b|
  {
    if a[0] != b[0] {
      SubsequenceTail(a, b[1..]);
      SubsequenceSkip(a[1..], b[1..]);
    }
  }

  /** `s.findIndex(p)`, with `|s|` standing for JavaScript's `-1`. */
  function FindIndex<T>(s: seq<T>, p: T -> bool): (k: nat)
    ensures k <= |s|
    ensures forall j :: 0 <= j < k ==> !p(s[j])
    ensures k < |s| ==> p(s[k])
  {
    if |s| == 0 then 0 else if p(s[0]) then 0 else 1 + FindIndex(s[1..], p)
  }

  /** `s.find(p)`: the first element satisfying `p`, if any. */
  function Find<T>(s: seq<T>, p: T -> bool): (r: Option<T>)
    ensures r.None? <==> forall i :: 0 <= i < |s| ==> !p(s[i])
    ensures r.Some? ==> r.value in s && p(r.value)
    ensures r.Some? ==> r.value == s[FindIndex(s, p)]
  {
    var k := FindIndex(s, p);
    if k < |s| then Some(s[k]) else None
  }

  /** `s.some(p)` */
  predicate Exists<T>(s: seq<T>, p: T -> bool) {
    exists i :: 0 <= i < |s| && p(s[i])
  }

  /** `s.every(p)` */
  predicate Every<T>(s: seq<T>, p: T -> bool) {
    forall i :: 0 <= i < |s| ==> p(s[i])
  }

  /** A filter keeps every element exactly when every element passes. */
  lemma {:induction false} FilterKeepsAll<T(!new)>(s: seq<T>, p: T -> bool)
    ensures |Filter(s, p)| == |s| <==> forall i :: 0 <= i < |s| ==> p(s[i])
  {
    if |s| > 0 {
      FilterKeepsAll(s[1..], p);
      assert forall i :: 0 < i < |s| ==> s[i] == s[1..][i - 1];
    }
  }

  /** Filtering distributes over concatenation. */
  lemma {:induction false} FilterAppend<T(!new)>(a: seq<T>, b: seq<T>, p: T -> bool)
    ensures Filter(a + b, p) == Filter(a, p) + Filter(b, p)
  {
    if |a| == 0 {
      assert a + b == b;
    } else {
      assert (a + b)[1..] == a[1..] + b;
      FilterAppend(a[1..], b, p);
    }
  }

  /** A filter that every element passes changes nothing. */
  lemma {:induction false} FilterAll<T(!new)>(s: seq<T>, p: T -> bool)
    requires forall i :: 0 <= i < |s| ==> p(s[i])
    ensures Filter(s, p) == s
  {
    if |s| > 0 {
      FilterAll(s[1..], p);
      assert s == [s[0]] + s[1..];
    }
  }

  /** A filter keeps pairwise facts about the elements it keeps. */
  lemma {:induction false} FilterKeepsPairwise<T(!new)>(s: seq<T>, p: T -> bool, R: (T, T) -> bool)
    requires forall i, j :: 0 <= i < j < |s| ==> R(s[i], s[j])
    ensures forall i, j :: 0 <= i < j < |Filter(s, p)| ==> R(Filter(s, p)[i], Filter(s, p)[j])
  {
    if |s| > 0 {
      FilterKeepsPairwise(s[1..], p, R);
      var rest := Filter(s[1..], p);
      forall x | x in rest ensures R(s[0], x) {
        var j :| 0 <= j < |s[1..]| && s[1..][j] == x;
        assert s[j + 1] == x;
      }
    }
  }
}

=== FILE: js_string.dfy ===
/**
 `String.prototype.trim` and the emptiness test `s.trim() === ''` the board
 uses to reject blank card contents, column titles and checklist items.
 */
module JsString {

  /**
   The characters `trim` strips: ECMAScript's WhiteSpace (TAB, VT, FF,
   ZWNBSP and the Unicode space separators, category Zs) and LineTerminator
   (LF, CR, LS, PS) productions.
   */
  predicate IsWhitespace(c: char) {
    || c == '\t' || c == '\n' || c == '\U{000B}' || c == '\U{000C}' || c == '\r'
    || c == ' ' || c == '\U{00A0}' || c == '\U{1680}'
    || ('\U{2000}' <= c <= '\U{200A}')
    || c == '\U{2028}' || c == '\U{2029}' || c == '\U{202F}' || c == '\U{205F}'
    || c == '\U{3000}' || c == '\U{FEFF}'
  }

  predicate AllWhitespace(s: string) {
    forall i :: 0 <= i < |s| ==> IsWhitespace(s[i])
  }

  /** Strips leading whitespace: the result is the longest suffix not starting with whitespace. */
  function TrimStart(s: string): (r: string)
    ensures |r| <= |s| && r == s[|s| - |r|..]
    ensures AllWhitespace(s[..|s| - |r|])
    ensures |r| > 0 ==> !IsWhitespace(r[0])
  {
    if |s| > 0 && IsWhitespace(s[0]) then
      var r := TrimStart(s[1..]);
      assert s[..|s| - |r|][1..] == s[1..][..|s[1..]| - |r|];
      r
    else s
  }

  /** Strips trailing whitespace: the result is the longest prefix not ending with whitespace. */
  function TrimEnd(s: string): (r: string)
    ensures |r| <= |s| && r == s[..|r|]
    ensures AllWhitespace(s[|r|..])
    ensures |r| > 0 ==> !IsWhitespace(r[|r| - 1])
  {
    if |s| > 0 && IsWhitespace(s[|s| - 1]) then
      var r := TrimEnd(s[..|s| - 1]);
      assert s[|r|..][..|s| - 1 - |r|] == s[..|s| - 1][|r|..];
      r
    else s
  }

  /**
   `s.trim()`: `s` with every leading and trailing whitespace character
   removed; the result is blank exactly when `s` is all whitespace, and
   otherwise starts and ends with a non-whitespace character.
   */
  function Trim(s: string): (r: string)
    ensures |r| <= |s|
    ensures |r| == 0 <==> AllWhitespace(s)
    ensures |r| > 0 ==> !IsWhitespace(r[0]) && !IsWhitespace(r[|r| - 1])
    ensures var a := |s| - |TrimStart(s)|;
      && a + |r| <= |s| && r == s[a..a + |r|]
      && (forall i :: 0 <= i < a ==> IsWhitespace(s[i]))
      && (forall i :: a + |r| <= i < |s| ==> IsWhitespace(s[i]))
  {
    TrimBlank(s);
    var t := TrimStart(s);
    var r := TrimEnd(t);
    SliceOfSuffix(s, t, r);
    r
  }

  /**
   A prefix `r` of a suffix `t` of `s` is a middle slice of `s`; when what
   `t` cuts off `s` and what `r` cuts off `t` are whitespace, everything of
   `s` outside that slice is whitespace.
   */
  lemma SliceOfSuffix(s: string, t: string, r: string)
    requires |t| <= |s| && t == s[|s| - |t|..] && AllWhitespace(s[..|s| - |t|])
    requires |r| <= |t| && r == t[..|r|] && AllWhitespace(t[|r|..])
    ensures var a := |s| - |t|;
      && a + |r| <= |s| && r == s[a..a + |r|]
      && (forall i :: 0 <= i < a ==> IsWhitespace(s[i]))
      && (forall i :: a + |r| <= i < |s| ==> IsWhitespace(s[i]))
  {
    var a := |s| - |t|;
    forall i | 0 <= i < a ensures IsWhitespace(s[i]) {
      assert s[..a][i] == s[i];
    }
    forall i | a + |r| <= i < |s| ensures IsWhitespace(s[i]) {
      assert t[|r|..][i - a - |r|] == s[i];
    }
  }

  /** `TrimEnd(TrimStart(s))` is empty exactly when every character of `s` is whitespace. */
  lemma TrimBlank(s: string)
    ensures |TrimEnd(TrimStart(s))| == 0 <==> AllWhitespace(s)
    ensures |TrimEnd(TrimStart(s))| > 0 ==> !IsWhitespace(TrimEnd(TrimStart(s))[0])
  {
    var t := TrimStart(s);
    var r := TrimEnd(t);
    var lo := |s| - |t|;
    if |r| == 0 {
      assert AllWhitespace(t) by { assert t[|r|..] == t; }
      assert |t| == 0;
      assert s[..lo] == s;
    } else {
      assert r[0] == t[0] == s[lo];
    }
  }

  /** The guard `s.trim() === ''`. */
  predicate IsBlank(s: string) {
    Trim(s) == ""
  }

  /** Trimming twice is trimming once. */
  lemma TrimIdempotent(s: string)
    ensures Trim(Trim(s)) == Trim(s)
  {
    var r := Trim(s);
    if |r| > 0 {
      assert TrimStart(r) == r;
      assert TrimEnd(r) == r;
    }
  }
}

=== FILE: move_lemmas.dfy ===
/**
 What moving a card does to the board as a whole: between two distinct
 columns, when column ids are distinct and the card's id occurs once in its
 column, no card is created or lost (`filter` drops every copy of the id
 while only one is appended); moving back restores the target column; and a
 move within one column loses the card.
 */
module MoveLemmas {
  import opened JsArray
  import opened Board
  import opened BoardOps

  /** With distinct ids, a card whose id is `cards[k].id` occurs once if it is `cards[k]`, else not at all. */
  lemma {:induction false} UniqueIdCount(cards: seq<Card>, k: nat)
    requires UniqueCardIds(cards) && k < |cards|
    ensures forall x: Card :: x.id == cards[k].id ==> multiset(cards)[x] == if x == cards[k] then 1 else 0
  {
    assert cards == cards[..k] + [cards[k]] + cards[k + 1..];
    assert forall x: Card :: x.id == cards[k].id ==> x !in cards[..k] && x !in cards[k + 1..];
  }

  /** Removing the one card with id `cards[k].id` takes exactly that card out of the multiset. */
  lemma RemoveUniqueCard(cards: seq<Card>, k: nat)
    requires UniqueCardIds(cards) && k < |cards|
    ensures multiset(RemoveCard(cards, cards[k].id)) + multiset{cards[k]} == multiset(cards)
  {
    UniqueIdCount(cards, k);
    var r := RemoveCard(cards, cards[k].id);
    FilterCount(cards, NotCard(cards[k].id));
    forall x: Card ensures (multiset(r) + multiset{cards[k]})[x] == multiset(cards)[x] {
      if x.id == cards[k].id {
        assert x !in r;
      }
    }
  }

  /**
   Moving `card` out of column `s` and into column `t` of a board, all other
   columns untouched, keeps the multiset of cards on the board.
   */
  lemma CardBagTransfer(b: Board, r: Board, s: nat, t: nat, card: Card)
    requires |r| == |b| && s < |b| && t < |b| && s != t
    requires forall i :: 0 <= i < |b| && i != s && i != t ==> r[i] == b[i]
    requires multiset(r[s].cards) + multiset{card} == multiset(b[s].cards)
    requires multiset(r[t].cards) == multiset(b[t].cards) + multiset{card}
    ensures CardBag(r) == CardBag(b)
  {
    var b1 := b[s := r[s]];
    var r' := b1[t := r[t]];
    forall i | 0 <= i < |b| ensures r'[i] == r[i] {
      if i != s && i != t { assert r'[i] == b[i]; }
    }
    assert r == r';
    CardBagUpdate(b, s, r[s]);
    CardBagUpdate(b1, t, r[t]);
    assert b1[t] == b[t];
    var B, B1, R := CardBag(b), CardBag(b1), CardBag(r);
    var bs, rs, bt, rt := multiset(b[s].cards), multiset(r[s].cards), multiset(b[t].cards), multiset(r[t].cards);
    var c := multiset{card};
    forall x ensures R[x] == B[x] {
      assert (B1 + bs)[x] == (B + rs)[x];
      assert (R + bt)[x] == (B1 + rt)[x];
      assert (rs + c)[x] == bs[x];
      assert (bt + c)[x] == rt[x];
    }
    assert R == B;
  }

  /**
   Card conservation: moving a card between two distinct columns of a board
   with distinct column ids, out of a column with distinct card ids, leaves
   the multiset of cards on the board unchanged.
   */
  lemma MoveCardConservesCards(b: Board, cardId: Id, sourceColumnId: Id, targetColumnId: Id)
    requires UniqueColumnIds(b)
    requires sourceColumnId != targetColumnId
    requires HasColumn(b, sourceColumnId) && HasColumn(b, targetColumnId)
    requires UniqueCardIds(b[ColumnIndex(b, sourceColumnId)].cards)
    ensures CardBag(MoveCard(b, cardId, sourceColumnId, targetColumnId)) == CardBag(b)
  {
    var r := MoveCard(b, cardId, sourceColumnId, targetColumnId);
    var s, t := ColumnIndex(b, sourceColumnId), ColumnIndex(b, targetColumnId);
    if FindCard(b, sourceColumnId, cardId).Some? {
      var k := CardIndex(b[s].cards, cardId);
      var card := b[s].cards[k];
      RemoveUniqueCard(b[s].cards, k);
      assert r[s].cards == RemoveCard(b[s].cards, cardId);
      assert r[t].cards == b[t].cards + [card];
      CardBagTransfer(b, r, s, t, card);
    }
  }

  /**
   Moving a card from column A to column B and back again restores B
   exactly and puts the card back in A (at its end), for a board whose
   column ids are distinct and where B held no card with that id.
   */
  lemma MoveCardRoundTrip(b: Board, cardId: Id, a: Id, bId: Id)
    requires UniqueColumnIds(b)
    requires a != bId && HasColumn(b, a) && HasColumn(b, bId)
    requires HasCardIn(b[ColumnIndex(b, a)].cards, cardId)
    requires !HasCardIn(b[ColumnIndex(b, bId)].cards, cardId)
    ensures var r := MoveCard(MoveCard(b, cardId, a, bId), cardId, bId, a);
      var ia, ib := ColumnIndex(b, a), ColumnIndex(b, bId);
      && |r| == |b|
      && r[ib] == b[ib]
      && r[ia].cards == RemoveCard(b[ia].cards, cardId) + [FindCard(b, a, cardId).value]
      && HasCardIn(r[ia].cards, cardId)
      && forall i :: 0 <= i < |b| && i != ia && i != ib ==> r[i] == b[i]
  {
    var ia, ib := ColumnIndex(b, a), ColumnIndex(b, bId);
    var card := FindCard(b, a, cardId).value;
    var r1 := MoveCard(b, cardId, a, bId);
    MoveCardFirstLeg(b, cardId, a, bId);
    var r := MoveCard(r1, cardId, bId, a);
    assert HasColumn(r1, a) && r1[ib].id == bId && r1[ia].id == a;
    assert r[ib].cards == RemoveCard(b[ib].cards + [card], cardId);
    FilterAppend(b[ib].cards, [card], NotCard(cardId));
    assert RemoveCard(b[ib].cards + [card], cardId) == RemoveCard(b[ib].cards, cardId) + RemoveCard([card], cardId);
    assert RemoveCard([card], cardId) == [];
    assert r[ib].cards == b[ib].cards;
    assert FindCard(r1, bId, cardId).value == card;
    assert r[ia].cards == r1[ia].cards + [card];
    assert r[ia].cards[|r[ia].cards| - 1].id == cardId;
    assert r[ib] == b[ib];
    forall i | 0 <= i < |b| && i != ia && i != ib ensures r[i] == b[i] {
      assert b[i].id != a && b[i].id != bId;
      assert r1[i] == b[i];
    }
  }

  /** After the first move the card is the one `find` sees in column B, and the columns sit where they did. */
  lemma MoveCardFirstLeg(b: Board, cardId: Id, a: Id, bId: Id)
    requires UniqueColumnIds(b)
    requires a != bId && HasColumn(b, a) && HasColumn(b, bId)
    requires HasCardIn(b[ColumnIndex(b, a)].cards, cardId)
    requires !HasCardIn(b[ColumnIndex(b, bId)].cards, cardId)
    ensures var r1 := MoveCard(b, cardId, a, bId);
      var ia, ib := ColumnIndex(b, a), ColumnIndex(b, bId);
      && ColumnIndex(r1, a) == ia && ColumnIndex(r1, bId) == ib
      && r1[ia].cards == RemoveCard(b[ia].cards, cardId)
      && r1[ib].cards == b[ib].cards + [FindCard(b, a, cardId).value]
      && FindCard(r1, bId, cardId) == FindCard(b, a, cardId)
  {
    var ia, ib := ColumnIndex(b, a), ColumnIndex(b, bId);
    var card := FindCard(b, a, cardId).value;
    var r1 := MoveCard(b, cardId, a, bId);
    ColumnIndexSameIds(b, r1, a);
    ColumnIndexSameIds(b, r1, bId);
    FindAppendedCard(b[ib].cards, card);
  }

  /**
   A move whose source and target are the same column takes the card out of
   that column and does not put it back: the column shrinks, no card with
   that id is left in it, and (column ids being distinct) the board holds
   fewer copies of the card than before.
   */
  lemma MoveCardSameColumnLosesCard(b: Board, cardId: Id, columnId: Id)
    requires FindCard(b, columnId, cardId).Some?
    ensures var r := MoveCard(b, cardId, columnId, columnId);
      var i := ColumnIndex(b, columnId);
      && |r[i].cards| < |b[i].cards|
      && !HasCardIn(r[i].cards, cardId)
      && (UniqueColumnIds(b) ==> CardBag(r)[FindCard(b, columnId, cardId).value] < CardBag(b)[FindCard(b, columnId, cardId).value])
  {
    var r := MoveCard(b, cardId, columnId, columnId);
    var i := ColumnIndex(b, columnId);
    var card := FindCard(b, columnId, cardId).value;
    assert r[i].cards == RemoveCard(b[i].cards, cardId);
    if UniqueColumnIds(b) {
      forall j | 0 <= j < |b| ensures b[i := r[i]][j] == r[j] {
        if j != i { assert b[j].id != columnId; }
      }
      assert r == b[i := r[i]];
      CardBagUpdate(b, i, r[i]);
      assert card in b[i].cards;
      assert card !in r[i].cards;
      assert (CardBag(r) + multiset(b[i].cards))[card] == (CardBag(b) + multiset(r[i].cards))[card];
    }
  }

  /**
   The move as evidently intended: dropping a card on its own column should
   keep it, at the column's end, instead of losing it.
   Between distinct columns it is `MoveCard`.
   */
  function MoveCardToTail(b: Board, cardId: Id, sourceColumnId: Id, targetColumnId: Id): (r: Board)
    ensures FindCard(b, sourceColumnId, cardId).None? ==> r == b
    ensures |r| == |b|
    ensures forall i :: 0 <= i < |b| ==> r[i].id == b[i].id && r[i].title == b[i].title
    ensures forall i :: 0 <= i < |b| && b[i].id != sourceColumnId && b[i].id != targetColumnId ==> r[i] == b[i]
  {
    if sourceColumnId != targetColumnId then MoveCard(b, cardId, sourceColumnId, targetColumnId)
    else
      match FindCard(b, sourceColumnId, cardId)
      case None => b
      case Some(card) =>
        Map(b, (column: Column) =>
          if column.id == sourceColumnId then column.(cards := RemoveCard(column.cards, cardId) + [card])
          else column)
  }

  /**
   Card conservation for every move, within one column included, on a board
   with distinct column ids whose source column has distinct card ids.
   */
  lemma MoveCardToTailConservesCards(b: Board, cardId: Id, sourceColumnId: Id, targetColumnId: Id)
    requires UniqueColumnIds(b)
    requires HasColumn(b, sourceColumnId)
    requires UniqueCardIds(b[ColumnIndex(b, sourceColumnId)].cards)
    ensures CardBag(MoveCardToTail(b, cardId, sourceColumnId, targetColumnId)) == CardBag(b)
  {
    if sourceColumnId != targetColumnId {
      if HasColumn(b, targetColumnId) {
        MoveCardConservesCards(b, cardId, sourceColumnId, targetColumnId);
      }
    } else if FindCard(b, sourceColumnId, cardId).Some? {
      var s := ColumnIndex(b, sourceColumnId);
      var k := CardIndex(b[s].cards, cardId);
      var card := b[s].cards[k];
      var column := b[s].(cards := RemoveCard(b[s].cards, cardId) + [card]);
      MoveCardToTailWithin(b, cardId, sourceColumnId);
      RemoveUniqueCard(b[s].cards, k);
      assert multiset(column.cards) == multiset(b[s].cards);
      CardBagReorder(b, s, column);
    }
  }

  /** Rearranging the cards of one column leaves the board's cards unchanged. */
  lemma CardBagReorder(b: Board, s: nat, column: Column)
    requires s < |b| && multiset(column.cards) == multiset(b[s].cards)
    ensures CardBag(b[s := column]) == CardBag(b)
  {
    CardBagUpdate(b, s, column);
    var r := b[s := column];
    forall x ensures CardBag(r)[x] == CardBag(b)[x] {
      assert (CardBag(r) + multiset(b[s].cards))[x] == (CardBag(b) + multiset(column.cards))[x];
    }
  }

  /** Within one column the fixed move rewrites only that column: the card goes to its end. */
  lemma MoveCardToTailWithin(b: Board, cardId: Id, columnId: Id)
    requires UniqueColumnIds(b)
    requires FindCard(b, columnId, cardId).Some?
    ensures var s := ColumnIndex(b, columnId);
      MoveCardToTail(b, cardId, columnId, columnId)
        == b[s := b[s].(cards := RemoveCard(b[s].cards, cardId) + [FindCard(b, columnId, cardId).value])]
  {
    var r := MoveCardToTail(b, cardId, columnId, columnId);
    var s := ColumnIndex(b, columnId);
    var r' := b[s := b[s].(cards := RemoveCard(b[s].cards, cardId) + [FindCard(b, columnId, cardId).value])];
    forall j | 0 <= j < |b| ensures r'[j] == r[j] {
      if j != s { assert b[j].id != columnId; }
    }
    assert |r| == |r'|;
  }
}

=== FILE: scenario.dfy ===
/**
 A walk-through on the initial board: add a card to "To Do", then move it
 to "Done".
 */
module Scenario {
  import opened Wrappers
  import opened JsArray
  import opened JsString
  import opened Board
  import opened BoardOps

  /** A string with no whitespace at either end trims to itself. */
  lemma TrimUntouched(s: string)
    requires |s| > 0 && !IsWhitespace(s[0]) && !IsWhitespace(s[|s| - 1])
    ensures Trim(s) == s
  {
    assert TrimStart(s) == s;
  }

  /** A typical card text, "Write spec", is non-blank and already trimmed. */
  lemma WriteSpecIsTrimmed()
    ensures !IsBlank("Write spec") && Trim("Write spec") == "Write spec"
  {
    TrimUntouched("Write spec");
  }

  /** The board after the add step: the new card in "To Do", the other columns as they were. */
  function AfterAdd(id: Id, content: string): Board {
    [Column("todo", "To Do", [NewCard(id, content)]), InitialBoard[1], InitialBoard[2]]
  }

  /** Adding trimmed, non-blank text to "To Do" on the initial board gives a bare card holding it. */
  lemma AddStep(id: Id, content: string)
    requires !IsBlank(content) && Trim(content) == content
    ensures AddCard(InitialBoard, "todo", content, id) == AfterAdd(id, content)
  {
    var added := AddCard(InitialBoard, "todo", content, id);
    assert HasColumn(InitialBoard, "todo") by { assert InitialBoard[0].id == "todo"; }
    assert added[0].cards == added[0].cards[..0] + [added[0].cards[0]];
  }

  /** The only card of a column is the one `FindCard` sees there. */
  lemma FindOnlyCard(b: Board, card: Card, columnId: Id)
    requires |b| > 0 && b[0].id == columnId && b[0].cards == [card]
    ensures FindCard(b, columnId, card.id) == Some(card)
  {
    assert FindCardIn(b[0].cards, card.id) == Some(card);
  }

  /** On a three-column board, moving the only card of the first column to the empty third one. */
  lemma MoveAcross(b: Board, card: Card, src: Id, tgt: Id)
    requires |b| == 3 && src != tgt
    requires b[0].id == src && b[0].cards == [card]
    requires b[1].id != src && b[1].id != tgt
    requires b[2].id == tgt && b[2].cards == []
    ensures MoveCard(b, card.id, src, tgt) == [b[0].(cards := []), b[1], b[2].(cards := [card])]
  {
    var moved := MoveCard(b, card.id, src, tgt);
    MoveAcrossCards(b, card, src, tgt);
    assert moved[0] == b[0].(cards := []);
    assert moved[2] == b[2].(cards := [card]);
  }

  /** The card lists of the two columns involved in `MoveAcross`. */
  lemma MoveAcrossCards(b: Board, card: Card, src: Id, tgt: Id)
    requires |b| == 3 && src != tgt
    requires b[0].id == src && b[0].cards == [card]
    requires b[2].id == tgt && b[2].cards == []
    ensures MoveCard(b, card.id, src, tgt)[0].cards == []
    ensures MoveCard(b, card.id, src, tgt)[2].cards == [card]
  {
    FindOnlyCard(b, card, src);
    assert HasColumn(b, tgt) by { assert b[2].id == tgt; }
    assert RemoveCard([card], card.id) == [];
  }

  /** Moving that card to "Done" empties "To Do" and puts the card in "Done". */
  lemma MoveStep(id: Id, content: string)
    ensures MoveCard(AfterAdd(id, content), id, "todo", "done")
      == [Column("todo", "To Do", []), InitialBoard[1], Column("done", "Done", [NewCard(id, content)])]
  {
    MoveAcross(AfterAdd(id, content), NewCard(id, content), "todo", "done");
  }

  /**
   A card added to "To Do" lands there as a bare card with the trimmed text,
   and moving it to "Done" empties "To Do" and puts it in "Done"; the
   text "Write spec" is such a text (`WriteSpecIsTrimmed`).
   */
  lemma AddThenMoveToDone(id: Id, content: string)
    requires !IsBlank(content) && Trim(content) == content
    ensures var added := AddCard(InitialBoard, "todo", content, id);
      && added[0].cards == [Card(id, content, "", [], None, [])]
      && added[1..] == InitialBoard[1..]
    ensures var moved := MoveCard(AddCard(InitialBoard, "todo", content, id), id, "todo", "done");
      && moved[0] == Column("todo", "To Do", [])
      && moved[1] == InitialBoard[1]
      && moved[2] == Column("done", "Done", [Card(id, content, "", [], None, [])])
  {
    AddStep(id, content);
    MoveStep(id, content);
  }
}

=== FILE: status_lemmas.dfy ===
/**
 Properties of the card's derived status: sample progress values and
 colours, and that a card only grows more urgent as days pass.
 */
module StatusLemmas {
  import opened Wrappers
  import opened JsArray
  import opened Board
  import opened CardStatus

  /** Sample progress values: an empty checklist is at 0, one of two checked is at 50. */
  lemma ProgressExamples()
    ensures ChecklistProgress([]) == 0.0
    ensures ChecklistProgress([ChecklistItem("1", "a", true), ChecklistItem("2", "b", false)]) == 50.0
  {
    var items := [ChecklistItem("1", "a", true), ChecklistItem("2", "b", false)];
    assert CheckedItems(items) == [items[0]] by {
      assert items == [items[0]] + [items[1]];
      FilterAppend([items[0]], [items[1]], (item: ChecklistItem) => item.checked);
    }
  }

  /** One checked item of three is at a third of 100, not rounded. */
  lemma ProgressOneOfThree()
    ensures ChecklistProgress([ChecklistItem("1", "a", true), ChecklistItem("2", "b", false), ChecklistItem("3", "c", false)])
      == 100.0 / 3.0
  {
    var items := [ChecklistItem("1", "a", true), ChecklistItem("2", "b", false), ChecklistItem("3", "c", false)];
    assert CountChecked(items) == 1 by {
      assert items[1..][1..] == [items[2]];
    }
  }

  function CardWith(dueDate: Option<Day>, checklist: seq<ChecklistItem>): Card {
    Card("c", "content", "", [], dueDate, checklist)
  }

  /** One sample card per colour class: all checked, due yesterday, due tomorrow, due in ten days. */
  lemma CardColorExamples(today: Day)
    ensures CardColor(CardWith(None, [ChecklistItem("1", "a", true)]), today) == CompletedClass
    ensures CardColor(CardWith(Some(today - 1), []), today) == OverdueClass
    ensures CardColor(CardWith(Some(today + 1), []), today) == DueSoonClass
    ensures CardColor(CardWith(Some(today + 10), []), today) == PlainClass
  {
    assert AllChecked([ChecklistItem("1", "a", true)]);
  }

  /** Whether a card shows as completed does not depend on the day. */
  lemma CompletedIgnoresDay(card: Card, d1: Day, d2: Day)
    ensures CardColor(card, d1) == CompletedClass <==> CardColor(card, d2) == CompletedClass
  {
  }

  /** As days pass a card's urgency never drops: plain, then due soon, then overdue. */
  lemma UrgencyMonotone(card: Card, d1: Day, d2: Day)
    requires d1 <= d2
    ensures Urgency(CardColor(card, d1)) <= Urgency(CardColor(card, d2))
  {
  }
}

=== FILE: wrappers.dfy ===
/** The optional value the board code writes as `T | undefined`. */
module Wrappers {

  datatype Option<+T> = None | Some(value: T) {
    /** `value ?? fallback` */
    function GetOr(fallback: T): T {
      match this
      case Some(v) => v
      case None => fallback
    }
  }
}
